=== FILE: README.md ===
# Ess-Three storage engine in Dafny

This project models Ess-Three's storage engine, a small S3-compatible object store. It also models the pure request helpers of the HTTP handlers around the engine.

The engine keeps three separately addressed areas, and the model keeps them as three maps in a `Storage.Store`:
- object bytes, by (bucket, key);
- object metadata records, by (bucket, key);
- multipart sessions, by (bucket, upload id). The object key plays no part in this address.

Every engine operation is a pure function. It takes a store and its inputs and returns a `Result` (the answer or a typed `StorageError`) together with the new store. Anything the engine reads from outside becomes a parameter of the operation:
- the clock readings behind ETags, modification times and upload ids;
- the MD5 digest of a part.

Modules follow the program's structure:
- `Storage` (storage.dfy): the store and the single-object operations PutObject, GetObject, HeadObject, DeleteObject, DeleteObjects and GetObjectRange.
- `Listing` (listing.dfy): listAllObjects and the V1/V2 pagination, plus a client walking through the pages.
- `Multipart` (multipart.dfy): CreateMultipartUpload, UploadPart, ListParts, CompleteMultipartUpload and AbortMultipartUpload.
- `Handlers` (handlers.dfy): the handler-side logic:
  - `Range` header parsing;
  - `x-amz-meta-` extraction and the default content type;
  - `max-keys` and the list-response fields;
  - ETag quoting and stripping;
  - the GET response for a whole object or a range.
- Helper modules for the Go library behaviour the code relies on:
  - `Numbers`: `strconv.ParseInt`, `%d` and `%x`;
  - `Text`: `strings.Split`, `Trim`, `TrimPrefix` and `ToLower`;
  - `StringOrder`: Go's byte-wise string `<`;
  - `Sorting`: `sort.Slice` on keys and part numbers;
  - `Results`.

The code has these quirks, and the model reproduces them on purpose:
- A marker past every key restarts the listing from the beginning.
- The ETags a client lists on completion are never compared with the stored ones.
- A part number listed twice is copied twice.
- A completion that meets a missing part leaves behind:
  - the object's bytes, truncated and partly rewritten;
  - the old metadata record;
  - the session.
- Get and range reads test the bytes for existence, while Head tests the metadata record.
- A range request that starts past the end is answered `InternalError`, not `InvalidRange`.
- `bytes=-N` is read as bytes 0 to N, not as a suffix range.
- A non-positive `max-keys` is echoed in the response, even though the engine serves 1000 keys.
- The PutObject ETag is built from the size and the second of the write, not from the content.

One behaviour of the code is evidently unintended: the page end of a listing is a 64-bit sum that can wrap around and make the request panic. "## Findings" records it. The rest of the model uses the intended unbounded sum.

## Model

| member | source | states |
|---|---|---|
| Storage.PutObject | internal/storage/storage.go:100-149 | Put always succeeds. Its answer carries:<br>- the given key;<br>- the byte count as size;<br>- the given content type and metadata;<br>- the modification time;<br>- the size-and-second ETag.<br>The slot then holds exactly the written bytes and a record. Every other object and every session is untouched. |
| Storage.PutThenGet | internal/storage/storage.go:100-201 | After a Put, Get returns exactly the written bytes, with the metadata the Put returned. Head returns the same metadata. |
| Storage.PutOverwrites | internal/storage/storage.go:100-180 | A second Put to the same key is what Get then returns. The store is exactly as if only the second Put had happened. |
| Storage.PutTwiceIsPutOnce | internal/storage/storage.go:100-149 | Two Puts to one key leave exactly the store that the second Put alone leaves. Bytes and record are both replaced, and nothing else differs. |
| Storage.PutETagIgnoresContent | internal/storage/storage.go:124-125 | Two Puts of equal size in the same second get the same ETag, whatever their bytes. |
| Storage.GetObject | internal/storage/storage.go:152-180 | "Not found" exactly when the bytes are missing. Success exactly when the bytes and the record are both present, and it returns the stored bytes and the record under the requested key. Bytes without a record give a metadata-read failure. |
| Storage.HeadObject | internal/storage/storage.go:183-201 | Success exactly when the metadata record exists, returning that record. Otherwise "not found". The bytes are not consulted. |
| Storage.GetAgreesWithHead | internal/storage/storage.go:152-201 | Whenever Get succeeds, Head returns the same metadata. |
| Storage.ConsistentGetMatchesHead | internal/storage/storage.go:152-201 | In a store where every object has bytes and a record of matching size, Get and Head agree on existence, and Get's size is its byte count. |
| Storage.DeleteObject | internal/storage/storage.go:204-219 | Delete always succeeds and removes both the bytes and the record. Every other object and every session is untouched. |
| Storage.DeleteThenNotFound | internal/storage/storage.go:152-219 | After a delete, both Get and Head report "not found". |
| Storage.DeleteIdempotent | internal/storage/storage.go:204-219 | Deleting twice is deleting once. Deleting an absent object changes nothing. |
| Storage.DeleteObjects | internal/storage/storage.go:222-236 | Every requested key is reported deleted, in order, with no errors. All of them are gone afterwards, and nothing else changes. |
| Storage.PutKeepsConsistent | internal/storage/storage.go:100-149 | Put preserves "every object has bytes and a record whose size is the byte count". |
| Storage.DeleteKeepsConsistent | internal/storage/storage.go:204-219 | Delete preserves the same invariant. |
| Storage.DeleteObjectsKeepsConsistent | internal/storage/storage.go:222-236 | A batch delete preserves the same invariant (by induction on the keys). |
| Storage.ClampStart | internal/storage/storage.go:255-257 | A negative start becomes 0. A non-negative start is kept as given. |
| Storage.ClampEnd | internal/storage/storage.go:252-254 | A negative end, or one at or past the size, becomes size - 1, the last byte. An end inside the object is kept as given. |
| Storage.GetObjectRange | internal/storage/storage.go:239-292 | Missing bytes give "not found". Otherwise the read fails with "invalid range" exactly when the clamped start exceeds the clamped end. A non-empty clamped range succeeds when the record exists, and fails with a metadata-read error when it does not. On success it serves exactly the bytes from the clamped start to the clamped end inclusive, with those bounds and the record. |
| Storage.RangeWithinBounds | internal/storage/storage.go:251-291 | For 0 <= start <= end < size, the read serves exactly data[start..end] inclusive, at those bounds. |
| Storage.RangeIsSliceOfGet | internal/storage/storage.go:152-292 | A served range is the corresponding slice of what Get serves, with the same metadata. |
| Storage.RangeOpenEndIsWholeObject | internal/storage/storage.go:251-257 | Start 0 with end -1 serves a non-empty object whole. -1 is the only negative end the Range parser yields. |
| Storage.RangeOfEmptyObjectFails | internal/storage/storage.go:251-260 | Every range of an empty object is "invalid range". |
| Listing.PageSize | internal/storage/storage.go:352-354 | A max-keys of 0 or less means a page of 1000. A positive max-keys is the page size as given. |
| Listing.PrefixedKeys | internal/storage/storage.go:305-333 | The listed key set is exactly the keys with a metadata record in the bucket that start with the prefix. |
| Listing.ListAll | internal/storage/storage.go:300-348 | The listing is in strictly ascending key order. |
| Listing.ListAllSound | internal/storage/storage.go:319-333 | Every listed entry is the record of an object of the bucket whose key starts with the prefix. |
| Listing.ListAllComplete | internal/storage/storage.go:305-336 | No object of the bucket under the prefix is missing from the listing. |
| Listing.ListAllExact | internal/storage/storage.go:300-348 | The listed keys ascend strictly and are exactly the bucket's keys with the prefix. |
| Listing.EmptyPrefixListsAll | internal/storage/storage.go:331-333 | The empty prefix lists every object of the bucket. |
| Listing.FirstAfter | internal/storage/storage.go:364-369 | The scan stops at the first position whose key is greater than the cursor. If no key is greater, it yields 0. |
| Listing.ResumeIndex | internal/storage/storage.go:361-370 | An empty cursor resumes at 0. Otherwise the listing resumes at the first key greater than the cursor, or at 0 when no key is. |
| Listing.ResumeSplitsAtCursor | internal/storage/storage.go:361-370 | In an ascending listing, keys before the resume point are at most the cursor and keys from it on are greater. A deleted key still resumes correctly. |
| Listing.ResumeAfterKey | internal/storage/storage.go:361-370 | Resuming after the key at position i resumes at i+1. |
| Listing.MarkerPastEndRestarts | internal/storage/storage.go:362-370 | A marker at or past every key gives the same page as no marker. |
| Listing.Paginate | internal/storage/storage.go:372-384 | The page is at most page-size consecutive objects from the resume point. It is truncated when resume point + page size < total, with the sum on unbounded integers (see "## Findings"). When truncated it is full and the next cursor is its last key; otherwise it runs to the end with an empty cursor. |
| Listing.PaginateAsWritten | internal/storage/storage.go:372-380 | With Go's 64-bit int sum, the slice panics exactly when resume point + page size exceeds 2^63 - 1. Otherwise the page is the one Paginate cuts. |
| Listing.WrappedEndPanics | internal/storage/storage.go:372-380 | Keys `a`, `b`, marker `a` and max-keys 2^63 - 1 panic as written, where the intended page is `b` alone, untruncated. |
| Listing.ListObjects | internal/storage/storage.go:351-391 | V1 returns that page of the listing for the marker, with the cursor as NextMarker. |
| Listing.ListObjectsV2 | internal/storage/storage.go:394-434 | V2 returns that page for the continuation token, with the cursor as NextContinuationToken. |
| Listing.V1AgreesWithV2 | internal/storage/storage.go:351-434 | V1 and V2 cut the same page from the same cursor, with the same next cursor. |
| Listing.EmptyBucketListsNothing | internal/storage/storage.go:338-347 | A bucket without objects, including one never written, lists as a single empty, untruncated page. |
| Listing.ListedKeysNonEmpty | internal/storage/storage.go:319-333 | When the bucket has no object under the empty key, no listed key is empty. |
| Listing.PageAdvances | internal/storage/storage.go:372-384 | After a truncated page, its cursor resumes right after the page. The rest of the listing is the page followed by what the next call starts from. |
| Listing.DrainV1 | internal/storage/storage.go:351-391 | Following NextMarker until a page is not truncated yields the listing from the marker's resume point on. |
| Listing.DrainV2 | internal/storage/storage.go:394-434 | Following NextContinuationToken yields the same. |
| Listing.PaginationComplete | internal/storage/storage.go:351-434 | Walking from the start, with any max-keys and either call, yields every key of the bucket under the prefix exactly once, in ascending order. |
| Multipart.RandomId | internal/storage/storage.go:657-659 | The random id is the clock reading in lower-case hex: hex digits only, no dash, value equal to the reading. |
| Multipart.UploadIdParts | internal/storage/storage.go:444 | An upload id splits at its one dash into the decimal clock and the random id. |
| Multipart.UploadIdDeterminesClocks | internal/storage/storage.go:444 | Distinct pairs of clock readings give distinct upload ids. |
| Multipart.CreateMultipartUpload | internal/storage/storage.go:442-474 | Create records a session under the new id, with the bucket, key, content type, metadata and time. A new id starts with no parts. A colliding id keeps its parts. Objects and other sessions are untouched. |
| Multipart.UploadPart | internal/storage/storage.go:477-523 | Without a session it fails with "upload not found" and nothing changes. Otherwise it stores the bytes under the part number, replacing any earlier part. It returns the hash as ETag and the byte count as size. Nothing else changes. |
| Multipart.ListParts | internal/storage/storage.go:615-654 | Without a session it fails with "upload not found". Otherwise it always succeeds and returns every stored part number once, in increasing order, each with its recorded ETag and its size. |
| Multipart.PartListed | internal/storage/storage.go:630-651 | Every stored part appears in the listing as stored. |
| Multipart.ListedPartStored | internal/storage/storage.go:630-651 | Every listed part is a stored part, as stored. |
| Multipart.CreateThenListPartsEmpty | internal/storage/storage.go:442-654 | A freshly created session lists no parts. |
| Multipart.UploadThenListParts | internal/storage/storage.go:477-654 | After an upload the listing shows the new part with the hash and byte count. Every other part is shown as before. |
| Multipart.SessionIgnoresKey | internal/storage/storage.go:437-439 | ListParts, UploadPart and Abort give the same answer whatever object key is passed. |
| Multipart.SortedNumbers | internal/storage/storage.go:551-554 | Completion's order is the listed part numbers in ascending order, repetitions kept (a permutation). |
| Multipart.AllStoredSorted | internal/storage/storage.go:551-564 | The sorted order names only stored parts exactly when the listed parts do. |
| Multipart.SortedNumbersIs | internal/storage/storage.go:551-554 | Any ascending arrangement of the listed numbers is the order completion copies in. |
| Multipart.FirstMissing | internal/storage/storage.go:558-564 | Finds the first listed number without a stored part. Everything before it is stored, and it equals the length exactly when all are stored. |
| Multipart.Assemble | internal/storage/storage.go:545-571 | The copy loop either appends every part in order or stops at the first missing part, keeping what it wrote before it. |
| Multipart.ConcatLength | internal/storage/storage.go:557-571 | The assembled size is the sum of the part sizes. |
| Multipart.ConcatAppend | internal/storage/storage.go:558-571 | Copying one more part appends its bytes. |
| Multipart.CompleteMultipartUpload | internal/storage/storage.go:526-606 | Without a session: "upload not found", store unchanged. With one, success comes exactly when every listed part is stored. On success:<br>- the object under the given key is the parts concatenated in ascending number order;<br>- size is the byte count;<br>- content type and metadata come from the session;<br>- the ETag is the random id plus part count;<br>- the session is gone.<br>On a missing part:<br>- the object's bytes are the parts before it;<br>- the records and sessions are as they were.<br>No other object changes. |
| Multipart.Finish | internal/storage/storage.go:556-605 | The end of completion after the copy loop. It writes the record and removes the session on success, and writes only the partial bytes on a missing part. |
| Multipart.CompleteWritesGivenKey | internal/storage/storage.go:540-584 | Completion writes the object under the key it is given. The object under the session's original key is untouched. |
| Multipart.CompleteThenGet | internal/storage/storage.go:526-606 | A completed upload reads back as the listed parts concatenated in number order, with size equal to the sum of the part sizes. |
| Multipart.CompleteIgnoresListOrder | internal/storage/storage.go:551-554 | Completion depends only on the multiset of listed part numbers, not their order. |
| Multipart.CompleteIgnoresListedETags | internal/storage/storage.go:556-574 | The ETags and sizes a client lists do not change the outcome. |
| Multipart.ConcatThree | internal/storage/storage.go:556-571 | Three stored parts copied in order give their three byte strings one after another. |
| Multipart.CompleteCopiesRepeatedPartTwice | internal/storage/storage.go:556-571 | A part number listed twice yields that part's bytes twice. |
| Multipart.UploadThreeParts | internal/storage/storage.go:477-523 | Three uploads into a fresh session leave exactly those three parts, by number. |
| Multipart.CompleteThreeParts | internal/storage/storage.go:526-606 | Parts n1<n2<n3 listed as n2, n3, n1 assemble as n1, n2, n3, with the session's content type and metadata and the ETag for 3 parts. |
| Multipart.PartsOutOfOrder | internal/storage/storage.go:442-606 | Create, upload as n3, n1, n2, list as n2, n3, n1, then complete gives d1+d2+d3, size the sum of their lengths, and the creation's content type and metadata. |
| Multipart.FailedCompletionSplitsExistence | internal/storage/storage.go:545-564 | After a completion that stops at a missing part, under a key with no prior record:<br>- Get reports unreadable metadata;<br>- Head reports "not found";<br>- the session's parts are unchanged. |
| Multipart.SessionsKeepConsistent | internal/storage/storage.go:442-612 | Create, UploadPart and Abort leave objects consistent. |
| Multipart.CompleteKeepsConsistent | internal/storage/storage.go:526-606 | A successful completion keeps objects consistent. |
| Multipart.FailedCompletionBreaksConsistency | internal/storage/storage.go:545-564 | A completion that fails on a missing part breaks consistency under a key with no object. |
| Multipart.CompleteEndsSession | internal/storage/storage.go:602-603 | After success, ListParts and a second completion both report "upload not found". |
| Multipart.AbortMultipartUpload | internal/storage/storage.go:609-612 | Abort always succeeds, even for an unknown id. It removes that id's session and nothing else, for an id that names a single session directory (see "## Left out"). |
| Multipart.AbortEndsSession | internal/storage/storage.go:609-612 | After an abort, ListParts, UploadPart and Complete report "upload not found" without changing anything. Aborting again succeeds and changes nothing. |
| Handlers.ParseBound | internal/server/handlers.go:272-289 | An empty side takes its default. A non-empty side is accepted exactly when it is a 64-bit integer, and then has that value. |
| Handlers.ParseRangeHeader | internal/server/handlers.go:259-292 | The header is rejected without `bytes=`, and rejected unless the rest has exactly one dash. It is accepted exactly when each side is empty or a 64-bit integer. The start is then the side's value or 0, and the end the side's value or -1. A bad start is reported first, with its number error. An accepted range has 0 <= start and -1 <= end. |
| Handlers.BadSideRejected | internal/server/handlers.go:272-286 | A side that is neither empty nor a 64-bit integer, such as `abc` or a value past 64 bits, makes the header fail, on either side of the dash. |
| Handlers.RangeRoundTrip | internal/server/handlers.go:259-292 | Parsing `bytes=start-end` written in decimal gives (start, end) back. |
| Handlers.OpenEndedRange | internal/server/handlers.go:282-289 | `bytes=N-` parses as (N, -1). |
| Handlers.DashNIsNotSuffix | internal/server/handlers.go:272-280 | `bytes=-N` parses as (0, N), not as a suffix range. |
| Handlers.NoMultiRange | internal/server/handlers.go:265-286 | Any comma after the unit, as in a multi-range request, makes parsing fail. |
| Handlers.ContentTypeOrDefault | internal/server/handlers.go:299-302 | An empty Content-Type becomes `application/octet-stream`. Any other is kept. |
| Handlers.PutServesContentType | internal/server/handlers.go:299-315 | An object PUT with the defaulted Content-Type is served by a GET with the generic binary type when the request sent none, and with the sent type otherwise. |
| Handlers.ExtractMetadata | internal/server/handlers.go:304-313 | Every header whose lower-cased name starts with `x-amz-meta-` and has a value contributes its key. |
| Handlers.ExtractedFromLast | internal/server/handlers.go:305-313 | Every entry comes from the last header yielding its key, with that header's first value. |
| Handlers.ExtractedKeysAreLowerCase | internal/server/handlers.go:307-308 | Every extracted key is lower case. |
| Handlers.DistinctNamesKeepEveryValue | internal/server/handlers.go:305-313 | When names are distinct after lower-casing, every contributing header's first value is kept under its key. |
| Handlers.ExtractionIgnoresOrder | internal/server/handlers.go:305-313 | The order in which the header map is walked does not change the metadata. |
| Handlers.ServedHeaders | internal/server/handlers.go:249-251 | A GET or HEAD response carries one `x-amz-meta-` header per metadata key, in the walk order, with that key's value. |
| Handlers.ServedMetadataRoundTrip | internal/server/handlers.go:248-251 | Metadata served back as `x-amz-meta-` headers and sent again yields the same metadata. |
| Handlers.MaxKeysParam | internal/server/handlers.go:112-117 | An absent or unparsable max-keys is 1000. A parsable one is its value. |
| Handlers.MaxKeysRoundTrip | internal/server/handlers.go:112-117 | A 64-bit max-keys written in decimal reads back as itself. |
| Handlers.ShowObject | internal/server/handlers.go:137-146 | A listed object is shown with its key, modification time, ETag and size, and storage class STANDARD. |
| Handlers.ListCall | internal/server/handlers.go:119-130 | `list-type=2` takes the V2 call with the continuation token. Anything else takes V1 with the marker. Either way the page is the shared page for that cursor and max-keys. |
| Handlers.Respond | internal/server/handlers.go:137-174 | The response echoes bucket, prefix and the parsed max-keys, and shows the page. The next cursor appears only when truncated. V2 adds key count and continuation token; V1 adds the marker. |
| Handlers.HandleListObjects | internal/server/handlers.go:104-179 | The response names the bucket, the prefix and the parsed max-keys. |
| Handlers.ListResponsePage | internal/server/handlers.go:119-174 | The response shows the shared page for the request's cursor, and its truncation and next cursor. The page end is the unbounded sum (see "## Findings"). |
| Handlers.ListResponseResumes | internal/server/handlers.go:157-174 | A truncated response's next cursor is its last shown key, and resumes right after the page. |
| Handlers.NonPositiveMaxKeysEchoed | internal/server/handlers.go:112-155 | A max-keys of 0 or less is echoed as sent, while the page still holds up to 1000 objects. |
| Handlers.QuoteETag | internal/server/handlers.go:480 | The part ETag header is the digest between two double quotes. |
| Handlers.StripQuotes | internal/server/handlers.go:502 | Completion removes every leading and trailing double quote and nothing inside. |
| Handlers.StripUndoesQuote | internal/server/handlers.go:480-502 | For an ETag without surrounding quotes, strip(quote(e)) = e. |
| Handlers.CompletionParts | internal/server/handlers.go:497-504 | The parts passed to completion keep the listed numbers in order, with ETags stripped of quotes. |
| Handlers.ListedETagsNeverMatter | internal/server/handlers.go:497-507 | Two completion requests that list the same part numbers give the same result, whatever ETags they carry. |
| Handlers.ErrorCode | internal/server/handlers.go:198-203 | Only a "not found" failure is answered NoSuchKey. Every other failure is InternalError, never InvalidRange. |
| Handlers.ServeWhole | internal/server/handlers.go:226-254 | A whole-object GET succeeds exactly when Get does, and serves its bytes and metadata. Content-Length is the recorded size, with no Content-Range. NoSuchKey exactly when the bytes are missing. |
| Handlers.ServeRange | internal/server/handlers.go:197-224 | A range GET succeeds exactly when the bytes and the record exist and the clamped range is not empty. It then serves data[start..end] inclusive for the clamped bounds, with the stored record as metadata. Content-Length counts the bytes sent. Content-Range is `bytes start-end/size`, where size is the recorded size. NoSuchKey exactly when the bytes are missing; any other failure is InternalError. |
| Handlers.HandleGetObject | internal/server/handlers.go:182-256 | No Range header serves the whole object. An unparsable header is InvalidRange. Otherwise the parsed range is served. |
| Handlers.ClampedRangeServesSame | internal/server/handlers.go:197-211 | Requesting the clamped bounds again serves the same response. |
| Handlers.RangeReplay | internal/server/handlers.go:189-224 | Sending as a Range header exactly the range a response reports serves the same bytes with the same headers. |
| Handlers.RangePastEndIsInternalError | internal/server/handlers.go:189-203 | A range starting at or past the end, including any range of an empty object, is answered InternalError. |
| Handlers.DashNServesHead | internal/server/handlers.go:189-224 | `bytes=-N` serves the first N+1 bytes, or all of them when the object is shorter. |
| Handlers.ServeHead | internal/server/handlers.go:197-224 | Serving bytes 0 to N of a non-empty object with a record serves its first N+1 bytes, or all of them when it is shorter. |
| Handlers.ContentLengthCountsBody | internal/server/handlers.go:211-240 | Content-Length parses back as the number of bytes sent. For a range this always holds; for a whole object it holds in a consistent store. |
| Numbers.ParseInt64 | internal/server/handlers.go:276 | `strconv.ParseInt(s, 10, 64)` accepts exactly an optional sign and digits whose value fits in 64 bits, and returns that value. |
| Numbers.ParseDecimal | internal/server/handlers.go:211 | A 64-bit integer formatted in decimal parses back as itself. |
| Numbers.AddInt64 | internal/storage/storage.go:373 | Go's int sum on a 64-bit platform: within 64 bits, congruent to the exact sum modulo 2^64, and equal to it when it fits. |
| Numbers.Hex | internal/storage/storage.go:658 | `%x` of a non-negative number is lower-case hex digits whose value is the number. |
| Text.Split | internal/server/handlers.go:266 | `strings.Split` yields one more piece than there are separators. The pieces hold no separator, and joining them gives the input back. |
| Text.SplitJoin | internal/server/handlers.go:266 | Splitting the join of separator-free pieces gives the pieces back. |
| Text.Trim | internal/server/handlers.go:502 | `strings.Trim` with one cut character removes exactly the leading and trailing runs of it. |
| Text.ToLower | internal/server/handlers.go:307 | `strings.ToLower` keeps the length and lowers each ASCII letter. |
| Text.TrimPrefix | internal/server/handlers.go:308 | With the prefix present, prefix + result is the input. Otherwise the input is returned unchanged. |
| Sorting.SortStrings | internal/storage/storage.go:342-345 | The keys sorted strictly ascending, each exactly once. |
| Sorting.SortIntSet | internal/storage/storage.go:648-651 | The part numbers in increasing order, each exactly once. |
| Sorting.InsertionSort | internal/storage/storage.go:551-554 | The listed part numbers in ascending order, as a permutation of the input. |
| Sorting.AscendingUnique | internal/storage/storage.go:551-554 | Two ascending permutations of the same numbers are equal, so the sorted order is determined. |
| StringOrder.LessTotal | internal/storage/storage.go:343-344 | Go's byte-wise string order is total. |
| StringOrder.LessTransitive | internal/storage/storage.go:343-344 | Go's byte-wise string order is transitive. |
| StringOrder.EmptyIsLeast | internal/storage/storage.go:343-344 | The empty key sorts before every other key. |

## Left out

- File-system I/O is not modelled, nor are the failures it can cause: directory creation, open, create, copy, seek, remove, and unreadable or undecodable JSON. Every write succeeds. A metadata record is either present and readable or absent. The one partial state kept is that of a completion that meets a missing part.
- `filepath.Join` path building is assumed injective. Distinct (bucket, key) pairs and upload ids are distinct slots. Keys and upload ids containing `/` or `..`, the empty key and the empty upload id are not treated specially.
- Clock readings, the random id's clock and MD5 are parameters of the operations. Timestamps are integers, not formatted times.
- Integer widths are not modelled. Sizes, part numbers and offsets are unbounded integers. The listing page end is too, except in Listing.PaginateAsWritten (see "## Findings").
- Concurrency between requests is not modelled. Every operation is atomic.
- HTTP response writing, status codes and XML encoding/decoding are not modelled, nor are the Date/Server/Connection headers. The list response is a record of its fields, with "" meaning an omitted element.
- The routing and middleware in internal/server/server.go and the start-up in cmd/ess-three/main.go are not modelled.
- The part-number validation of handleUploadPart is not modelled. Neither are the handlers for head, delete, batch delete and abort, which only forward to the engine and write responses.
- The batch-delete handler's pairing of errors with keys is not modelled. It matters only when I/O fails.
- Go's header canonicalisation is not modelled. The header map's iteration order is a parameter: the headers arrive as a sequence, and later entries overwrite earlier ones.
- Text.ToLower: only ASCII letters are lowered. Go lowers all Unicode letters, but header names are ASCII tokens.
- Handlers.ErrorCode: the source matches "not found" against the error message. A metadata failure whose path contains "not found" would also be answered NoSuchKey, for example a bucket or key with those words in its name. The model answers it InternalError.
- Listing.Paginate: computes the page end on unbounded integers. Go's `startIdx + maxKeys` wraps past 2^63 - 1, and that panic is modelled only by Listing.PaginateAsWritten (see "## Findings"); the handlers use the intended page.
- Multipart.AbortMultipartUpload: removes only the named session, because upload ids are assumed to name one session directory each. In the source, `RemoveAll` on `filepath.Join(base, bucket, "multipart", id)` goes further for some ids. `DELETE /b/k?uploadId=` with an empty id is routed to abort, and it removes every session of the bucket. `uploadId=..` removes the whole bucket directory, and ids such as `../../x` reach outside it.
- Listing.PaginationComplete: proved only for buckets without an object under the empty key. This is a limit of the slot abstraction, not a behaviour of the code. In the model the empty key is an ordinary slot, and a page ending in it would hand back an empty cursor. In the source, key "" is the `objects` directory path itself. Putting it either fails, because the directory exists, or leaves a file there, and then every other Put and completion in the bucket fails at `MkdirAll`. So an object with the empty key never has a sibling, and no truncated page ends in it.
- Listing.DrainV1: same restriction as PaginationComplete.
- Listing.DrainV2: same restriction as PaginationComplete.
- Handlers.ContentLengthCountsBody: for a whole-object GET it assumes a consistent store. Content-Length is the recorded size, which differs from the bytes sent after a failed completion.

## Findings

| source | as written | input that shows it | evidently intended | confidence | as-written member | corrected member |
|---|---|---|---|---|---|---|
| internal/storage/storage.go:372-380 | `endIdx := startIdx + maxKeys` is a 64-bit int sum. Past 2^63 - 1 it wraps negative, `isTruncated` becomes true and `allObjects[startIdx:endIdx]` panics. The same code is at lines 415-422 for V2. | Keys `a` and `b`, `?marker=a&max-keys=9223372036854775807`. The resume point is 1 and the end wraps to -2^63, so the request panics and the recovery middleware answers 500. | The page `b`, not truncated, as for any max-keys at least the number of remaining keys. | high (reasoned from the code, not executed) | Listing.PaginateAsWritten, Listing.WrappedEndPanics | Listing.Paginate |

=== FILE: handlers.dfy ===
/**
 * The request-side helpers of the HTTP handlers: the `Range` header parser, the
 * `x-amz-meta-` header extraction and the default content type, the `max-keys` query
 * parameter and the fields of a list response, ETag quoting, and the headers of a
 * served range.
 */
module Handlers {
  import opened Results
  import Text
  import Numbers
  import Storage
  import Listing
  import Multipart

  // The Range header.

  /** Why a `Range` header is refused: wrong unit, not exactly one dash, or a bad number. */
  datatype RangeError = NotBytesUnit | NotOneDash | BadNumber(cause: Numbers.NumError)

  const BytesUnit: string := "bytes="

  /** The text after the unit, split at every dash. */
  function Sides(h: string): seq<string>
    requires Text.HasPrefix(h, BytesUnit)
  {
    Text.Split(h[|BytesUnit|..], '-')
  }

  /** A side the parser accepts: empty, or a 64-bit integer in decimal. */
  predicate SideAccepted(piece: string) {
    piece == "" || Numbers.ParseInt64(piece).Ok?
  }

  /** One side of the dash: `absent` when empty, else a 64-bit integer. */
  function ParseBound(piece: string, absent: int): (r: Result<int, RangeError>)
    ensures piece == "" ==> r == Ok(absent)
    ensures piece != "" ==> (r.Ok? <==> Numbers.ParseInt64(piece).Ok?)
    ensures piece != "" && r.Ok? ==> r.value == Numbers.ParseInt64(piece).value
  {
    if piece == "" then Ok(absent)
    else
      match Numbers.ParseInt64(piece)
      case Ok(n) => Ok(n)
      case Err(e) => Err(BadNumber(e))
  }

  /**
   * parseRangeHeader: `bytes=` followed by exactly one dash; an empty start means 0 and an
   * empty end means -1 ("to the end"); each non-empty side must be a 64-bit integer, and
   * the start is looked at first. Since neither side can hold a dash, an accepted header
   * has a start of at least 0 and an end of at least -1.
   */
  function ParseRangeHeader(h: string): (r: Result<(int, int), RangeError>)
    ensures !Text.HasPrefix(h, BytesUnit) ==> r == Err(NotBytesUnit)
    ensures Text.HasPrefix(h, BytesUnit) && multiset(h[|BytesUnit|..])['-'] != 1 ==> r == Err(NotOneDash)
    ensures r.Ok? <==>
      && Text.HasPrefix(h, BytesUnit) && |Sides(h)| == 2
      && SideAccepted(Sides(h)[0]) && SideAccepted(Sides(h)[1])
    ensures r.Ok? ==>
      && r.value.0 == (if Sides(h)[0] == "" then 0 else Numbers.ParseInt64(Sides(h)[0]).value)
      && r.value.1 == (if Sides(h)[1] == "" then -1 else Numbers.ParseInt64(Sides(h)[1]).value)
    ensures Text.HasPrefix(h, BytesUnit) && |Sides(h)| == 2 && !SideAccepted(Sides(h)[0]) ==>
      r == Err(BadNumber(Numbers.ParseInt64(Sides(h)[0]).error))
    ensures r.Ok? ==> 0 <= r.value.0 <= Numbers.Int64Max && -1 <= r.value.1 <= Numbers.Int64Max
  {
    if !Text.HasPrefix(h, BytesUnit) then Err(NotBytesUnit)
    else
      var spec := Text.TrimPrefix(h, BytesUnit);
      assert spec == h[|BytesUnit|..];
      var pieces := Text.Split(spec, '-');
      if |pieces| != 2 then Err(NotOneDash)
      else
        Numbers.ParseWithoutMinus(pieces[0]);
        Numbers.ParseWithoutMinus(pieces[1]);
        match ParseBound(pieces[0], 0)
        case Err(e) => Err(e)
        case Ok(start) =>
          match ParseBound(pieces[1], -1)
          case Err(e) => Err(e)
          case Ok(end) => Ok((start, end))
  }

  /** The header a client writes for the inclusive byte range `start`..`end`. */
  function RangeHeader(start: int, end: int): string {
    BytesUnit + Numbers.Decimal(start) + "-" + Numbers.Decimal(end)
  }

  lemma SplitTwo(a: string, b: string)
    requires '-' !in a && '-' !in b
    ensures Text.Split(a + "-" + b, '-') == [a, b]
  {
    var pieces := [a, b];
    assert pieces[1..] == [b];
    assert Text.Join(pieces, '-') == a + "-" + b;
    Text.SplitJoin(pieces, '-');
  }

  lemma AfterUnit(rest: string)
    ensures Text.HasPrefix(BytesUnit + rest, BytesUnit)
    ensures (BytesUnit + rest)[|BytesUnit|..] == rest
    ensures Text.TrimPrefix(BytesUnit + rest, BytesUnit) == rest
  {
    assert (BytesUnit + rest)[..|BytesUnit|] == BytesUnit;
  }

  /** Writing a range and parsing it gives the range back. */
  lemma RangeRoundTrip(start: int, end: int)
    requires 0 <= start <= Numbers.Int64Max && 0 <= end <= Numbers.Int64Max
    ensures ParseRangeHeader(RangeHeader(start, end)) == Ok((start, end))
  {
    var a, b := Numbers.Decimal(start), Numbers.Decimal(end);
    assert BytesUnit + a + "-" + b == BytesUnit + (a + "-" + b);
    AfterUnit(a + "-" + b);
    SplitTwo(a, b);
    Numbers.ParseDecimal(start);
    Numbers.ParseDecimal(end);
  }

  /** `bytes=N-` reads from N to the end of the object. */
  lemma OpenEndedRange(start: int)
    requires 0 <= start <= Numbers.Int64Max
    ensures ParseRangeHeader(BytesUnit + Numbers.Decimal(start) + "-") == Ok((start, -1))
  {
    var a := Numbers.Decimal(start);
    assert BytesUnit + a + "-" == BytesUnit + (a + "-" + "");
    AfterUnit(a + "-" + "");
    SplitTwo(a, "");
    Numbers.ParseDecimal(start);
  }

  /** `bytes=-N` is not a suffix range: it is read as the first bytes 0 to N. */
  lemma DashNIsNotSuffix(n: int)
    requires 0 <= n <= Numbers.Int64Max
    ensures ParseRangeHeader(BytesUnit + "-" + Numbers.Decimal(n)) == Ok((0, n))
  {
    var b := Numbers.Decimal(n);
    assert BytesUnit + "-" + b == BytesUnit + ("" + "-" + b);
    AfterUnit("" + "-" + b);
    SplitTwo("", b);
    Numbers.ParseDecimal(n);
  }

  /**
   * A side that is neither empty nor a 64-bit integer (letters, a fraction, a value past
   * 64 bits) makes the header fail, whichever side it is on.
   */
  lemma BadSideRejected(a: string, b: string)
    requires '-' !in a && '-' !in b
    requires !SideAccepted(a) || !SideAccepted(b)
    ensures ParseRangeHeader(BytesUnit + a + "-" + b).Err?
  {
    assert BytesUnit + a + "-" + b == BytesUnit + (a + "-" + b);
    AfterUnit(a + "-" + b);
    SplitTwo(a, b);
  }

  /** A comma anywhere after the unit (as in a multi-range request) makes the header fail. */
  lemma NoMultiRange(h: string, i: nat)
    requires |BytesUnit| <= i < |h| && h[i] == ','
    ensures ParseRangeHeader(h).Err?
  {
    if Text.HasPrefix(h, BytesUnit) {
      var spec := h[|BytesUnit|..];
      var pieces := Sides(h);
      if |pieces| == 2 {
        assert spec == pieces[0] + "-" + pieces[1] by {
          assert pieces[1..] == [pieces[1]];
        }
        var j := i - |BytesUnit|;
        assert spec[j] == ',';
        if j < |pieces[0]| {
          assert !SideAccepted(pieces[0]) by {
            assert pieces[0][j] == ',';
            Numbers.ParseRejectsForeignChar(pieces[0], j);
          }
        } else {
          assert !SideAccepted(pieces[1]) by {
            assert |spec| == |pieces[0]| + 1 + |pieces[1]|;
            assert spec[|pieces[0]|] == '-';
            var k := j - |pieces[0]| - 1;
            assert 0 <= k < |pieces[1]|;
            assert pieces[1][k] == spec[j];
            Numbers.ParseRejectsForeignChar(pieces[1], k);
          }
        }
      }
    }
  }

  // Custom metadata from request headers.

  /** A request header: its name and its values, as the request carries them. */
  datatype Header = Header(name: string, values: seq<string>)

  const MetaPrefix: string := "x-amz-meta-"

  /** A header that yields a metadata entry: lower-cased name with the prefix, and a value. */
  predicate Contributes(h: Header) {
    Text.HasPrefix(Text.ToLower(h.name), MetaPrefix) && |h.values| > 0
  }

  /** The metadata key a header yields: its lower-cased name without the prefix. */
  function MetaKey(h: Header): string {
    Text.TrimPrefix(Text.ToLower(h.name), MetaPrefix)
  }

  /** Header `h` yields an entry for key `k`. */
  predicate Yields(h: Header, k: string) {
    Contributes(h) && MetaKey(h) == k
  }

  /** Header `i` is the last one that yields key `k`. */
  predicate LastFor(headers: seq<Header>, i: int, k: string) {
    0 <= i < |headers| && Yields(headers[i], k) && forall j | i < j < |headers| :: !Yields(headers[j], k)
  }

  /**
   * The metadata of a PUT or of a new multipart upload, taken from the request headers in
   * the order given (the handler ranges over Go's header map, whose order is not fixed):
   * every contributing header adds its key with its first value, and a later one replaces
   * an earlier one with the same key. All other headers are ignored.
   */
  function ExtractMetadata(headers: seq<Header>): (m: map<string, string>)
    ensures forall i | 0 <= i < |headers| && Contributes(headers[i]) :: MetaKey(headers[i]) in m
  {
    if headers == [] then map[]
    else
      var last := headers[|headers| - 1];
      var m := ExtractMetadata(headers[..|headers| - 1]);
      if Contributes(last) then m[MetaKey(last) := last.values[0]] else m
  }

  /** Every extracted entry comes from the last header that yields its key, with that header's first value. */
  lemma {:induction false} ExtractedFromLast(headers: seq<Header>)
    ensures forall k | k in ExtractMetadata(headers) ::
      exists i :: LastFor(headers, i, k) && ExtractMetadata(headers)[k] == headers[i].values[0]
    decreases |headers|
  {
    if headers != [] {
      var init := headers[..|headers| - 1];
      var last := headers[|headers| - 1];
      var m := ExtractMetadata(init);
      var m' := ExtractMetadata(headers);
      ExtractedFromLast(init);
      forall k | k in m'
        ensures exists i :: LastFor(headers, i, k) && m'[k] == headers[i].values[0]
      {
        if Yields(last, k) {
          assert LastFor(headers, |headers| - 1, k);
        } else {
          assert k in ExtractMetadata(init);
          var i :| LastFor(init, i, k) && ExtractMetadata(init)[k] == init[i].values[0];
          assert headers[i] == init[i];
          assert LastFor(headers, i, k);
        }
      }
    }
  }

  /** Lower-casing twice is lower-casing once. */
  lemma ToLowerIdempotent(s: string)
    ensures Text.ToLower(Text.ToLower(s)) == Text.ToLower(s)
  {
  }

  /** Every extracted key is already lower case. */
  lemma ExtractedKeysAreLowerCase(headers: seq<Header>)
    ensures forall k | k in ExtractMetadata(headers) :: Text.ToLower(k) == k
  {
    var m := ExtractMetadata(headers);
    ExtractedFromLast(headers);
    forall k | k in m ensures Text.ToLower(k) == k {
      var i :| LastFor(headers, i, k) && ExtractMetadata(headers)[k] == headers[i].values[0];
      var lowered := Text.ToLower(headers[i].name);
      assert lowered == MetaPrefix + k;
      assert k == lowered[|MetaPrefix|..];
      ToLowerIdempotent(headers[i].name);
    }
  }

  /** A header name with the prefix, lower-cased, is the prefix followed by the rest lower-cased. */
  lemma LowerPrefixed(k: string)
    ensures Text.ToLower(MetaPrefix + k) == MetaPrefix + Text.ToLower(k)
  {
    Text.ToLowerConcat(MetaPrefix, k);
    assert Text.NoUpper(MetaPrefix);
    Text.LowerOfNoUpper(MetaPrefix);
  }

  /** Header names pairwise distinct once lower-cased. */
  predicate DistinctNames(headers: seq<Header>) {
    forall a, b | 0 <= a < b < |headers| :: Text.ToLower(headers[a].name) != Text.ToLower(headers[b].name)
  }

  lemma SameLowerNameSameIndex(headers: seq<Header>, a: int, b: int)
    requires DistinctNames(headers)
    requires 0 <= a < |headers| && 0 <= b < |headers|
    requires Text.ToLower(headers[a].name) == Text.ToLower(headers[b].name)
    ensures a == b
  {
  }

  /** A header yields key `k` exactly when its lower-cased name is the prefix followed by `k` (and it has a value). */
  lemma YieldsName(h: Header, k: string)
    ensures Yields(h, k) <==> Text.ToLower(h.name) == MetaPrefix + k && |h.values| > 0
  {
    if Text.ToLower(h.name) == MetaPrefix + k {
      AfterUnitMeta(k);
    }
  }

  /** When no two headers share a lower-cased name, each contributing header's value is kept. */
  lemma DistinctNamesKeepEveryValue(headers: seq<Header>, i: int)
    requires DistinctNames(headers)
    requires 0 <= i < |headers| && Contributes(headers[i])
    ensures MetaKey(headers[i]) in ExtractMetadata(headers)
    ensures ExtractMetadata(headers)[MetaKey(headers[i])] == headers[i].values[0]
  {
    var k := MetaKey(headers[i]);
    ExtractedFromLast(headers);
    assert k in ExtractMetadata(headers);
    var j :| LastFor(headers, j, k) && ExtractMetadata(headers)[k] == headers[j].values[0];
    YieldsName(headers[i], k);
    YieldsName(headers[j], k);
    SameLowerNameSameIndex(headers, i, j);
  }

  /**
   * So the order in which the header map is walked does not matter: two walks over the
   * same headers, each name once, give the same metadata.
   */
  lemma ExtractionIgnoresOrder(h1: seq<Header>, h2: seq<Header>)
    requires forall h :: h in h1 <==> h in h2
    requires DistinctNames(h1) && DistinctNames(h2)
    ensures ExtractMetadata(h1) == ExtractMetadata(h2)
  {
    var m1, m2 := ExtractMetadata(h1), ExtractMetadata(h2);
    ExtractedFromLast(h1);
    ExtractedFromLast(h2);
    forall k | k in m1 ensures k in m2 && m2[k] == m1[k] {
      var i :| LastFor(h1, i, k) && ExtractMetadata(h1)[k] == h1[i].values[0];
      assert h1[i] in h2;
      var j :| 0 <= j < |h2| && h2[j] == h1[i];
      DistinctNamesKeepEveryValue(h2, j);
    }
    forall k | k in m2 ensures k in m1 {
      var j :| LastFor(h2, j, k) && ExtractMetadata(h2)[k] == h2[j].values[0];
      assert h2[j] in h1;
      var i :| 0 <= i < |h1| && h1[i] == h2[j];
    }
  }

  /** The response header that serves metadata entry `k`: `v`. */
  function MetaHeader(k: string, v: string): Header {
    Header(MetaPrefix + k, [v])
  }

  /** The metadata headers a response carries for `m`, walking its keys in the order `keys`. */
  function ServedHeaders(m: map<string, string>, keys: seq<string>): (headers: seq<Header>)
    requires forall i | 0 <= i < |keys| :: keys[i] in m
    ensures |headers| == |keys|
    ensures forall i | 0 <= i < |keys| :: headers[i] == MetaHeader(keys[i], m[keys[i]])
  {
    seq(|keys|, i requires 0 <= i < |keys| => MetaHeader(keys[i], m[keys[i]]))
  }

  lemma ServedHeadersContribute(m: map<string, string>, keys: seq<string>)
    requires forall i | 0 <= i < |keys| :: keys[i] in m && Text.ToLower(keys[i]) == keys[i]
    requires forall a, b | 0 <= a < b < |keys| :: keys[a] != keys[b]
    ensures var headers := ServedHeaders(m, keys);
      && DistinctNames(headers)
      && forall i | 0 <= i < |keys| :: Contributes(headers[i]) && MetaKey(headers[i]) == keys[i]
  {
    var headers := ServedHeaders(m, keys);
    forall i | 0 <= i < |keys|
      ensures Text.ToLower(headers[i].name) == MetaPrefix + keys[i]
      ensures Contributes(headers[i]) && MetaKey(headers[i]) == keys[i]
    {
      LowerPrefixed(keys[i]);
      AfterUnitMeta(keys[i]);
    }
    forall a, b | 0 <= a < b < |headers| ensures Text.ToLower(headers[a].name) != Text.ToLower(headers[b].name) {
      assert keys[a] == (MetaPrefix + keys[a])[|MetaPrefix|..];
      assert keys[b] == (MetaPrefix + keys[b])[|MetaPrefix|..];
    }
  }

  lemma ServedValuesKept(m: map<string, string>, keys: seq<string>, k: string)
    requires forall i | 0 <= i < |keys| :: keys[i] in m && Text.ToLower(keys[i]) == keys[i]
    requires forall a, b | 0 <= a < b < |keys| :: keys[a] != keys[b]
    requires k in keys
    ensures k in ExtractMetadata(ServedHeaders(m, keys)) && ExtractMetadata(ServedHeaders(m, keys))[k] == m[k]
  {
    ServedHeadersContribute(m, keys);
    var i :| 0 <= i < |keys| && keys[i] == k;
    DistinctNamesKeepEveryValue(ServedHeaders(m, keys), i);
  }

  lemma ServedKeysOnly(m: map<string, string>, keys: seq<string>, k: string)
    requires forall i | 0 <= i < |keys| :: keys[i] in m && Text.ToLower(keys[i]) == keys[i]
    requires forall a, b | 0 <= a < b < |keys| :: keys[a] != keys[b]
    requires k in ExtractMetadata(ServedHeaders(m, keys))
    ensures k in keys
  {
    var headers := ServedHeaders(m, keys);
    ServedHeadersContribute(m, keys);
    ExtractedFromLast(headers);
    var i :| LastFor(headers, i, k) && ExtractMetadata(headers)[k] == headers[i].values[0];
    assert keys[i] == k;
  }

  /**
   * Metadata served back as `x-amz-meta-` headers, one per key in any order, and sent
   * again yields the same metadata, as long as its keys are lower case (which every
   * extracted key is).
   */
  lemma ServedMetadataRoundTrip(m: map<string, string>, keys: seq<string>)
    requires forall k | k in m :: Text.ToLower(k) == k
    requires forall k :: k in m <==> k in keys
    requires forall a, b | 0 <= a < b < |keys| :: keys[a] != keys[b]
    ensures ExtractMetadata(ServedHeaders(m, keys)) == m
  {
    assert forall i | 0 <= i < |keys| :: keys[i] in m && Text.ToLower(keys[i]) == keys[i];
    ServedKeysAgree(m, keys);
  }

  lemma ServedKeysAgree(m: map<string, string>, keys: seq<string>)
    requires forall i | 0 <= i < |keys| :: keys[i] in m && Text.ToLower(keys[i]) == keys[i]
    requires forall k :: k in m <==> k in keys
    requires forall a, b | 0 <= a < b < |keys| :: keys[a] != keys[b]
    ensures var e := ExtractMetadata(ServedHeaders(m, keys));
      e.Keys == m.Keys && forall k | k in m :: e[k] == m[k]
  {
    var e := ExtractMetadata(ServedHeaders(m, keys));
    forall k | k in m ensures k in e && e[k] == m[k] {
      ServedValuesKept(m, keys, k);
    }
    forall k | k in e ensures k in m {
      ServedKeysOnly(m, keys, k);
    }
  }

  lemma AfterUnitMeta(rest: string)
    ensures Text.HasPrefix(MetaPrefix + rest, MetaPrefix)
    ensures Text.TrimPrefix(MetaPrefix + rest, MetaPrefix) == rest
  {
    assert (MetaPrefix + rest)[..|MetaPrefix|] == MetaPrefix;
  }

  const DefaultContentType: string := "application/octet-stream"

  /** An empty Content-Type becomes the generic binary type; any other is kept. */
  function ContentTypeOrDefault(contentType: string): (r: string)
    ensures r != ""
    ensures contentType == "" ==> r == DefaultContentType
    ensures contentType != "" ==> r == contentType
  {
    if contentType == "" then DefaultContentType else contentType
  }

  /**
   * An object PUT with the request's Content-Type, defaulted, is served by a GET with that
   * type: the generic binary type when the request sent none, the sent one otherwise.
   */
  lemma PutServesContentType(
    st: Storage.Store, bucket: string, key: string, data: Storage.Bytes,
    metadata: map<string, string>, contentType: string, unixSeconds: int, now: Storage.Instant)
    ensures var put := Storage.PutObject(st, bucket, key, data, metadata, ContentTypeOrDefault(contentType), unixSeconds, now);
      var served := HandleGetObject(put.store, bucket, key, "");
      && served.Ok?
      && served.value.meta.contentType != ""
      && (contentType == "" ==> served.value.meta.contentType == DefaultContentType)
      && (contentType != "" ==> served.value.meta.contentType == contentType)
  {
    Storage.PutThenGet(st, bucket, key, data, metadata, ContentTypeOrDefault(contentType), unixSeconds, now);
  }

  // Listing: the max-keys parameter and the response fields.

  /** The `max-keys` query parameter: absent or not an integer means 1000, else its value. */
  function MaxKeysParam(text: string): (n: int)
    ensures Numbers.IsInt64(n)
    ensures Numbers.ParseInt64(text).Ok? ==> n == Numbers.ParseInt64(text).value
    ensures Numbers.ParseInt64(text).Err? ==> n == Listing.DefaultMaxKeys
  {
    if text == "" then Listing.DefaultMaxKeys
    else
      match Numbers.ParseInt64(text)
      case Ok(mk) => mk
      case Err(_) => Listing.DefaultMaxKeys
  }

  /** A `max-keys` written as a 64-bit decimal is read back as itself. */
  lemma MaxKeysRoundTrip(n: int)
    requires Numbers.IsInt64(n)
    ensures MaxKeysParam(Numbers.Decimal(n)) == n
  {
    Numbers.ParseDecimal(n);
  }

  /** The query parameters of a list request; an absent parameter reads as "". */
  datatype ListQuery = ListQuery(
    prefix: string, maxKeys: string, listType: string, marker: string, continuationToken: string)

  /** One listed object as the response shows it. */
  datatype Contents = Contents(key: string, lastModified: Storage.Instant, etag: string, size: int, storageClass: string)

  /**
   * The fields of a list response. Empty strings and a zero key count are left out of
   * the XML document, so "" here means "absent".
   */
  datatype ListBucketResult = ListBucketResult(
    name: string, prefix: string, marker: string, nextMarker: string, maxKeys: int,
    isTruncated: bool, contents: seq<Contents>, keyCount: int,
    continuationToken: string, nextContinuationToken: string)

  function ShowObject(o: Storage.ObjectMetadata): (c: Contents)
    ensures c.key == o.key && c.etag == o.etag && c.size == o.size && c.lastModified == o.lastModified
    ensures c.storageClass == "STANDARD"
  {
    Contents(o.key, o.lastModified, o.etag, o.size, "STANDARD")
  }

  predicate Shows(contents: seq<Contents>, objects: seq<Storage.ObjectMetadata>) {
    |contents| == |objects| && forall i | 0 <= i < |objects| :: contents[i] == ShowObject(objects[i])
  }

  /** The cursor the request carries: the continuation token for V2, the marker otherwise. */
  function Cursor(q: ListQuery): string {
    if q.listType == "2" then q.continuationToken else q.marker
  }

  /** The next cursor a storage page hands back: the continuation token for V2, the marker otherwise. */
  function PageCursor(q: ListQuery, page: Listing.ListResult): string {
    if q.listType == "2" then page.nextContinuationToken else page.nextMarker
  }

  /** The next cursor a list response shows, by the same rule. */
  function NextCursor(q: ListQuery, r: ListBucketResult): string {
    if q.listType == "2" then r.nextContinuationToken else r.nextMarker
  }

  /** The storage call a list request makes: V2 for `list-type=2`, V1 otherwise. */
  function ListCall(st: Storage.Store, bucket: string, q: ListQuery): (page: Listing.ListResult)
    ensures var p := Listing.Paginate(Listing.ListAll(st, bucket, q.prefix), Cursor(q), MaxKeysParam(q.maxKeys));
      && page.objects == p.objects
      && page.isTruncated == p.truncated
      && PageCursor(q, page) == p.next
    ensures q.listType == "2" ==> page.nextMarker == ""
    ensures q.listType != "2" ==> page.nextContinuationToken == ""
  {
    var maxKeys := MaxKeysParam(q.maxKeys);
    if q.listType == "2" then Listing.ListObjectsV2(st, bucket, q.prefix, q.continuationToken, maxKeys)
    else Listing.ListObjects(st, bucket, q.prefix, q.marker, maxKeys)
  }

  /**
   * The response fields of handleListObjects for the page the storage call returned: the
   * response echoes bucket, prefix and the parsed max-keys (even one the storage call
   * replaced by 1000) and lists the page; V2 adds the key count, the continuation token
   * sent and the next one, V1 the marker sent and the next one, each next cursor only
   * when the page is truncated.
   */
  function Respond(bucket: string, q: ListQuery, page: Listing.ListResult): (r: ListBucketResult)
    ensures r.name == bucket && r.prefix == q.prefix && r.maxKeys == MaxKeysParam(q.maxKeys)
    ensures Shows(r.contents, page.objects) && r.isTruncated == page.isTruncated
    ensures r.isTruncated ==> NextCursor(q, r) == PageCursor(q, page)
    ensures !r.isTruncated ==> r.nextMarker == "" && r.nextContinuationToken == ""
    ensures q.listType == "2" ==>
      && r.keyCount == |r.contents| && r.marker == "" && r.nextMarker == ""
      && r.continuationToken == q.continuationToken
    ensures q.listType != "2" ==>
      && r.keyCount == 0 && r.continuationToken == "" && r.nextContinuationToken == ""
      && r.marker == q.marker
    requires q.listType == "2" ==> page.nextMarker == ""
    requires q.listType != "2" ==> page.nextContinuationToken == ""
  {
    var contents := seq(|page.objects|, i requires 0 <= i < |page.objects| => ShowObject(page.objects[i]));
    var base := ListBucketResult(bucket, q.prefix, "", "", MaxKeysParam(q.maxKeys), page.isTruncated, contents, 0, "", "");
    if q.listType == "2" then
      base.(keyCount := |contents|,
            nextContinuationToken := if page.isTruncated then page.nextContinuationToken else "",
            continuationToken := q.continuationToken)
    else
      base.(nextMarker := if page.isTruncated then page.nextMarker else "",
            marker := q.marker)
  }

  /** handleListObjects: the storage call the request selects, and the response built from its page. */
  function HandleListObjects(st: Storage.Store, bucket: string, q: ListQuery): (r: ListBucketResult)
    ensures r.name == bucket && r.prefix == q.prefix && r.maxKeys == MaxKeysParam(q.maxKeys)
  {
    Respond(bucket, q, ListCall(st, bucket, q))
  }

  /** The response lists the page the shared page-cutting yields for the request's cursor. */
  lemma ListResponsePage(st: Storage.Store, bucket: string, q: ListQuery)
    ensures var r := HandleListObjects(st, bucket, q);
      var p := Listing.Paginate(Listing.ListAll(st, bucket, q.prefix), Cursor(q), MaxKeysParam(q.maxKeys));
      && Shows(r.contents, p.objects)
      && r.isTruncated == p.truncated
      && (r.isTruncated ==> NextCursor(q, r) == p.next)
  {
    var page := ListCall(st, bucket, q);
    assert Shows(Respond(bucket, q, page).contents, page.objects);
  }

  /**
   * A client that keeps sending the returned next cursor pages through the bucket: the
   * next cursor is the last key shown, and the next request resumes right after it.
   */
  lemma ListResponseResumes(st: Storage.Store, bucket: string, q: ListQuery)
    requires Storage.Slot(bucket, "") !in st.records
    ensures var r := HandleListObjects(st, bucket, q);
      var all := Listing.ListAll(st, bucket, q.prefix);
      r.isTruncated ==>
        && 0 < |r.contents|
        && NextCursor(q, r) == r.contents[|r.contents| - 1].key
        && Listing.ResumeIndex(all, NextCursor(q, r)) == Listing.ResumeIndex(all, Cursor(q)) + |r.contents|
  {
    var r := HandleListObjects(st, bucket, q);
    var all := Listing.ListAll(st, bucket, q.prefix);
    var p := Listing.Paginate(all, Cursor(q), MaxKeysParam(q.maxKeys));
    assert Shows(r.contents, p.objects) && r.isTruncated == p.truncated && (r.isTruncated ==> NextCursor(q, r) == p.next) by {
      ListResponsePage(st, bucket, q);
    }
    assert Listing.AscendingKeys(all) && Listing.NoEmptyKey(all) by {
      Listing.ListedKeysNonEmpty(st, bucket, q.prefix);
    }
    ShownPageResumes(all, Cursor(q), MaxKeysParam(q.maxKeys), r.contents, r.isTruncated, NextCursor(q, r));
  }

  lemma ShownPageResumes(all: seq<Storage.ObjectMetadata>, cursor: string, maxKeys: int,
                         contents: seq<Contents>, truncated: bool, next: string)
    requires Listing.AscendingKeys(all) && Listing.NoEmptyKey(all)
    requires var p := Listing.Paginate(all, cursor, maxKeys);
      && Shows(contents, p.objects) && truncated == p.truncated
      && (truncated ==> next == p.next)
    ensures truncated ==>
      && 0 < |contents|
      && next == contents[|contents| - 1].key
      && Listing.ResumeIndex(all, next) == Listing.ResumeIndex(all, cursor) + |contents|
  {
    var p := Listing.Paginate(all, cursor, maxKeys);
    if truncated {
      var n := |p.objects|;
      assert n == |contents| && n > 0;
      assert p.next == p.objects[n - 1].key;
      assert contents[n - 1].key == p.objects[n - 1].key;
      Listing.PageAdvances(all, cursor, maxKeys);
    }
  }

  /** A max-keys of 0 or less is echoed as sent, while the page still holds up to 1000 objects. */
  lemma NonPositiveMaxKeysEchoed(st: Storage.Store, bucket: string, q: ListQuery)
    requires Numbers.ParseInt64(q.maxKeys).Ok? && Numbers.ParseInt64(q.maxKeys).value <= 0
    ensures var r := HandleListObjects(st, bucket, q);
      && r.maxKeys == Numbers.ParseInt64(q.maxKeys).value
      && |r.contents| <= Listing.DefaultMaxKeys
      && (|r.contents| == Listing.DefaultMaxKeys || !r.isTruncated)
  {
  }

  // ETags on the wire.

  /** The part ETag in the UploadPart response header: the hex digest in double quotes. */
  function QuoteETag(e: string): (q: string)
    ensures |q| == |e| + 2 && q[0] == '"' && q[|q| - 1] == '"' && q[1..|q| - 1] == e
  {
    "\"" + e + "\""
  }

  /** Completion strips every leading and trailing double quote from the ETags a client lists. */
  function StripQuotes(e: string): (r: string)
    ensures Text.TrimmedOf(r, e, '"')
  {
    Text.Trim(e, '"')
  }

  /** A quote-free ETag survives the trip through a quoted header and back. */
  lemma StripUndoesQuote(e: string)
    requires Text.Unpadded(e, '"')
    ensures StripQuotes(QuoteETag(e)) == e
  {
    assert QuoteETag(e) == ['"'] + e + ['"'];
    Text.TrimUndoesPadding(e, '"');
  }

  /** A part as a completion request lists it. */
  datatype CompletePart = CompletePart(partNumber: int, etag: string)

  /** The parts handed to completion: the listed numbers, with their ETags stripped of quotes. */
  function CompletionParts(listed: seq<CompletePart>): (parts: seq<Storage.Part>)
    ensures |parts| == |listed|
    ensures forall i | 0 <= i < |listed| ::
      parts[i].partNumber == listed[i].partNumber && parts[i].etag == StripQuotes(listed[i].etag)
  {
    seq(|listed|, i requires 0 <= i < |listed| => Storage.Part(listed[i].partNumber, StripQuotes(listed[i].etag), 0))
  }

  /**
   * Whatever ETags a client lists, quoted or not, matching or not, completion produces the
   * same object: only the part numbers are used.
   */
  lemma ListedETagsNeverMatter(
    st: Storage.Store, bucket: string, key: string, uploadId: string,
    listed1: seq<CompletePart>, listed2: seq<CompletePart>, randomClock: int, now: Storage.Instant)
    requires |listed1| == |listed2|
    requires forall i | 0 <= i < |listed1| :: listed1[i].partNumber == listed2[i].partNumber
    ensures Multipart.CompleteMultipartUpload(st, bucket, key, uploadId, CompletionParts(listed1), randomClock, now)
         == Multipart.CompleteMultipartUpload(st, bucket, key, uploadId, CompletionParts(listed2), randomClock, now)
  {
    assert Multipart.PartNumbers(CompletionParts(listed1)) == Multipart.PartNumbers(CompletionParts(listed2));
    Multipart.CompleteIgnoresListedETags(st, bucket, key, uploadId, CompletionParts(listed1), CompletionParts(listed2), randomClock, now);
  }

  // Serving GET: the whole object or a range.

  /** The S3 error codes a GET is answered with. */
  datatype S3Error = NoSuchKey | InvalidRange | InternalError

  /**
   * The handler looks for "not found" in the storage error's message: the missing object's
   * message and the missing upload's message both have it, every other failure is an
   * internal error.
   */
  function ErrorCode(e: Storage.StorageError): (code: S3Error)
    ensures code == NoSuchKey <==> e.ObjectNotFound? || e.UploadNotFound?
    ensures code != InvalidRange
  {
    match e
    case ObjectNotFound(_, _) => NoSuchKey
    case UploadNotFound(_) => NoSuchKey
    case _ => InternalError
  }

  /** What a successful GET sends: the body, the object's metadata and the length headers. */
  datatype Served = Served(body: Storage.Bytes, meta: Storage.ObjectMetadata, contentLength: string, contentRange: string)

  /** The Content-Range of a served range: `bytes start-end/size`. */
  function ContentRange(start: int, end: int, size: int): string {
    "bytes " + Numbers.Decimal(start) + "-" + Numbers.Decimal(end) + "/" + Numbers.Decimal(size)
  }

  /** GET without a Range header: the whole object, with the recorded size as Content-Length. */
  function ServeWhole(st: Storage.Store, bucket: string, key: string): (r: Result<Served, S3Error>)
    ensures var g := Storage.GetObject(st, bucket, key);
      && (r.Ok? <==> g.Ok?)
      && (r.Ok? ==> r.value.body == g.value.data && r.value.meta == g.value.meta
                    && r.value.contentLength == Numbers.Decimal(g.value.meta.size) && r.value.contentRange == "")
    ensures r == Err(NoSuchKey) <==> Storage.Slot(bucket, key) !in st.contents
  {
    match Storage.GetObject(st, bucket, key)
    case Err(e) => Err(ErrorCode(e))
    case Ok(obj) => Ok(Served(obj.data, obj.meta, Numbers.Decimal(obj.meta.size), ""))
  }

  /**
   * GET of a parsed range: the range read, with Content-Range and a Content-Length that
   * counts the bytes sent. A range the read refuses (one starting past the end) is, through
   * ErrorCode, an internal error rather than InvalidRange.
   */
  function ServeRange(st: Storage.Store, bucket: string, key: string, rangeStart: int, rangeEnd: int): (r: Result<Served, S3Error>)
    ensures r == Err(NoSuchKey) <==> Storage.Slot(bucket, key) !in st.contents
    ensures r.Ok? <==>
      && Storage.Slot(bucket, key) in st.contents && Storage.Slot(bucket, key) in st.records
      && Storage.ClampStart(rangeStart) <= Storage.ClampEnd(rangeEnd, |st.contents[Storage.Slot(bucket, key)]|)
    ensures Storage.Slot(bucket, key) in st.contents && !r.Ok? ==> r == Err(InternalError)
    ensures r.Ok? ==>
      && Storage.Slot(bucket, key) in st.contents && Storage.Slot(bucket, key) in st.records
      && r.value.meta == Storage.Describe(key, st.records[Storage.Slot(bucket, key)])
      && var data := st.contents[Storage.Slot(bucket, key)];
      && var start := Storage.ClampStart(rangeStart);
      && var end := Storage.ClampEnd(rangeEnd, |data|);
      && 0 <= start <= end < |data|
      && r.value.body == data[start..end + 1]
      && r.value.contentLength == Numbers.Decimal(|r.value.body|)
      && r.value.contentRange == ContentRange(start, end, r.value.meta.size)
  {
    match Storage.GetObjectRange(st, bucket, key, rangeStart, rangeEnd)
    case Err(e) => Err(ErrorCode(e))
    case Ok(read) =>
      Ok(Served(read.data, read.meta, Numbers.Decimal(read.end - read.start + 1),
                ContentRange(read.start, read.end, read.meta.size)))
  }

  /**
   * handleGetObject: an empty Range header serves the whole object; a header that does not
   * parse is answered InvalidRange; otherwise the parsed range is served.
   */
  function HandleGetObject(st: Storage.Store, bucket: string, key: string, rangeHeader: string): (r: Result<Served, S3Error>)
    ensures rangeHeader == "" ==> r == ServeWhole(st, bucket, key)
    ensures rangeHeader != "" && ParseRangeHeader(rangeHeader).Err? ==> r == Err(InvalidRange)
    ensures rangeHeader != "" && ParseRangeHeader(rangeHeader).Ok? ==>
      var bounds := ParseRangeHeader(rangeHeader).value;
      r == ServeRange(st, bucket, key, bounds.0, bounds.1)
    ensures rangeHeader != "" && r.Ok? ==> r.value.contentLength == Numbers.Decimal(|r.value.body|)
  {
    if rangeHeader == "" then ServeWhole(st, bucket, key)
    else
      match ParseRangeHeader(rangeHeader)
      case Err(_) => Err(InvalidRange)
      case Ok(bounds) => ServeRange(st, bucket, key, bounds.0, bounds.1)
  }

  /** Serving again the range a response reports, after clamping, gives the same response. */
  lemma ClampedRangeServesSame(st: Storage.Store, bucket: string, key: string, rangeStart: int, rangeEnd: int)
    requires ServeRange(st, bucket, key, rangeStart, rangeEnd).Ok?
    ensures var data := st.contents[Storage.Slot(bucket, key)];
      var start := Storage.ClampStart(rangeStart);
      var end := Storage.ClampEnd(rangeEnd, |data|);
      ServeRange(st, bucket, key, start, end) == ServeRange(st, bucket, key, rangeStart, rangeEnd)
  {
    var data := st.contents[Storage.Slot(bucket, key)];
    var start := Storage.ClampStart(rangeStart);
    var end := Storage.ClampEnd(rangeEnd, |data|);
    var asked := Storage.GetObjectRange(st, bucket, key, rangeStart, rangeEnd);
    var clamped := Storage.GetObjectRange(st, bucket, key, start, end);
    assert asked.Ok?;
    assert Storage.ClampStart(start) == start && Storage.ClampEnd(end, |data|) == end;
    assert clamped.Ok?;
    assert clamped.value == asked.value;
  }

  /**
   * Asking again, as a Range header, for exactly the range a response reports serves the
   * same bytes with the same headers.
   */
  lemma RangeReplay(st: Storage.Store, bucket: string, key: string, rangeHeader: string)
    requires rangeHeader != ""
    requires HandleGetObject(st, bucket, key, rangeHeader).Ok?
    requires Storage.Slot(bucket, key) in st.contents ==> |st.contents[Storage.Slot(bucket, key)]| <= Numbers.Int64Max
    ensures var data := st.contents[Storage.Slot(bucket, key)];
      var bounds := ParseRangeHeader(rangeHeader).value;
      var start := Storage.ClampStart(bounds.0);
      var end := Storage.ClampEnd(bounds.1, |data|);
      HandleGetObject(st, bucket, key, RangeHeader(start, end)) == HandleGetObject(st, bucket, key, rangeHeader)
  {
    var bounds := ParseRangeHeader(rangeHeader).value;
    ClampedRangeServesSame(st, bucket, key, bounds.0, bounds.1);
    var data := st.contents[Storage.Slot(bucket, key)];
    var start := Storage.ClampStart(bounds.0);
    var end := Storage.ClampEnd(bounds.1, |data|);
    RangeRoundTrip(start, end);
    assert RangeHeader(start, end) != "" by { assert RangeHeader(start, end)[0] == 'b'; }
  }

  /**
   * A range that starts at or past the end of the object (and any range of an empty object)
   * is refused by the range read, and the handler answers it as an internal error.
   */
  lemma RangePastEndIsInternalError(st: Storage.Store, bucket: string, key: string, rangeHeader: string)
    requires rangeHeader != "" && ParseRangeHeader(rangeHeader).Ok?
    requires Storage.Slot(bucket, key) in st.contents
    requires ParseRangeHeader(rangeHeader).value.0 >= |st.contents[Storage.Slot(bucket, key)]|
    ensures HandleGetObject(st, bucket, key, rangeHeader) == Err(InternalError)
  {
  }

  /** `bytes=-N` on an object with bytes serves its first N+1 bytes (all of them when it is shorter). */
  lemma DashNServesHead(st: Storage.Store, bucket: string, key: string, n: int)
    requires 0 <= n <= Numbers.Int64Max
    requires Storage.Slot(bucket, key) in st.contents && Storage.Slot(bucket, key) in st.records
    requires |st.contents[Storage.Slot(bucket, key)]| > 0
    ensures var data := st.contents[Storage.Slot(bucket, key)];
      var r := HandleGetObject(st, bucket, key, BytesUnit + "-" + Numbers.Decimal(n));
      && r.Ok?
      && r.value.body == (if n < |data| then data[..n + 1] else data)
  {
    var h := BytesUnit + "-" + Numbers.Decimal(n);
    var data := st.contents[Storage.Slot(bucket, key)];
    assert HandleGetObject(st, bucket, key, h) == ServeRange(st, bucket, key, 0, n) by {
      DashNIsNotSuffix(n);
      assert h[0] == 'b';
    }
    ServeHead(st, bucket, key, n);
  }

  /** Serving bytes 0 to n of an object with bytes serves its first n+1 bytes, or all of them. */
  lemma ServeHead(st: Storage.Store, bucket: string, key: string, n: int)
    requires 0 <= n
    requires Storage.Slot(bucket, key) in st.contents && Storage.Slot(bucket, key) in st.records
    requires |st.contents[Storage.Slot(bucket, key)]| > 0
    ensures var data := st.contents[Storage.Slot(bucket, key)];
      var r := ServeRange(st, bucket, key, 0, n);
      && r.Ok?
      && r.value.body == (if n < |data| then data[..n + 1] else data)
  {
    var data := st.contents[Storage.Slot(bucket, key)];
    assert data[0..|data|] == data;
  }

  /**
   * The Content-Length of a range response parses back as the number of bytes sent; for a
   * whole object it does when the store is consistent, so that the recorded size is the
   * stored byte count.
   */
  lemma ContentLengthCountsBody(st: Storage.Store, bucket: string, key: string, rangeHeader: string)
    requires HandleGetObject(st, bucket, key, rangeHeader).Ok?
    requires |HandleGetObject(st, bucket, key, rangeHeader).value.body| <= Numbers.Int64Max
    requires rangeHeader == "" ==> Storage.Consistent(st)
    ensures var served := HandleGetObject(st, bucket, key, rangeHeader).value;
      Numbers.ParseInt64(served.contentLength) == Ok(|served.body|)
  {
    var served := HandleGetObject(st, bucket, key, rangeHeader).value;
    Numbers.ParseDecimal(|served.body|);
  }
}

=== FILE: listing.dfy ===
/**
 * Listing: the prefix-filtered, key-ordered view of a bucket's metadata records
 * (listAllObjects) and its paging by marker (ListObjects) or continuation token
 * (ListObjectsV2), which work the same way.
 */
module Listing {
  import opened StringOrder
  import opened Text
  import Sorting
  import Numbers
  import opened Storage

  /** The page size used when the caller asks for none or for a non-positive number. */
  const DefaultMaxKeys: nat := 1000

  function PageSize(maxKeys: int): (n: nat)
    ensures n >= 1
    ensures maxKeys <= 0 ==> n == DefaultMaxKeys
    ensures maxKeys > 0 ==> n == maxKeys
  {
    if maxKeys <= 0 then DefaultMaxKeys else maxKeys
  }

  /** The keys of the bucket's metadata records that start with `prefix`. */
  function PrefixedKeys(st: Store, bucket: string, prefix: string): (ks: set<string>)
    ensures forall k :: k in ks <==> Slot(bucket, k) in st.records && HasPrefix(k, prefix)
  {
    set s | s in st.records && s.bucket == bucket && HasPrefix(s.key, prefix) :: s.key
  }

  /** Keys strictly ascending, hence also without repetition. */
  predicate AscendingKeys(objs: seq<ObjectMetadata>) {
    forall i, j | 0 <= i < j < |objs| :: Less(objs[i].key, objs[j].key)
  }

  function Keys(objs: seq<ObjectMetadata>): (ks: seq<string>)
    ensures |ks| == |objs| && forall i | 0 <= i < |objs| :: ks[i] == objs[i].key
  {
    seq(|objs|, i requires 0 <= i < |objs| => objs[i].key)
  }

  /**
   * listAllObjects: the metadata of every object of the bucket whose key starts with the
   * prefix, in ascending key order (ListAllComplete shows no such object is missed).
   */
  function ListAll(st: Store, bucket: string, prefix: string): (all: seq<ObjectMetadata>)
    ensures AscendingKeys(all)
  {
    var keys := Sorting.SortStrings(PrefixedKeys(st, bucket, prefix));
    seq(|keys|, i requires 0 <= i < |keys| => Describe(keys[i], st.records[Slot(bucket, keys[i])]))
  }

  /** Every entry of the listing is the description of a record of the bucket under the prefix. */
  lemma ListAllSound(st: Store, bucket: string, prefix: string)
    ensures var all := ListAll(st, bucket, prefix);
      forall i | 0 <= i < |all| ::
        && Slot(bucket, all[i].key) in st.records
        && HasPrefix(all[i].key, prefix)
        && all[i] == Describe(all[i].key, st.records[Slot(bucket, all[i].key)])
  {
  }

  /** Every object of the bucket whose key starts with the prefix is in the listing. */
  lemma ListAllComplete(st: Store, bucket: string, prefix: string)
    ensures forall k | Slot(bucket, k) in st.records && HasPrefix(k, prefix) ::
      k in Keys(ListAll(st, bucket, prefix))
  {
    var all := ListAll(st, bucket, prefix);
    var keys := Sorting.SortStrings(PrefixedKeys(st, bucket, prefix));
    forall k | Slot(bucket, k) in st.records && HasPrefix(k, prefix)
      ensures k in Keys(all)
    {
      assert k in keys;
      var i :| 0 <= i < |keys| && keys[i] == k;
      assert Keys(all)[i] == k;
    }
  }

  /**
   * The search for the resume point, from position `i` on: the first position whose key
   * is greater than the cursor, or 0 when no key is.
   */
  function FirstAfter(all: seq<ObjectMetadata>, cursor: string, i: nat): (r: nat)
    requires i <= |all|
    ensures (exists j | i <= j < |all| :: Less(cursor, all[j].key)) ==>
      && i <= r < |all|
      && Less(cursor, all[r].key)
      && forall j | i <= j < r :: !Less(cursor, all[j].key)
    ensures (forall j | i <= j < |all| :: !Less(cursor, all[j].key)) ==> r == 0
    decreases |all| - i
  {
    if i == |all| then 0
    else if Less(cursor, all[i].key) then i
    else FirstAfter(all, cursor, i + 1)
  }

  /**
   * Where a listing resumes after `cursor`: 0 for no cursor, otherwise the first position
   * whose key is greater than the cursor, and 0 again when no key is greater.
   */
  function ResumeIndex(all: seq<ObjectMetadata>, cursor: string): (r: nat)
    ensures r == 0 || r < |all|
    ensures cursor == "" ==> r == 0
    ensures cursor != "" && (exists j | 0 <= j < |all| :: Less(cursor, all[j].key)) ==>
      && r < |all|
      && Less(cursor, all[r].key)
      && forall j | 0 <= j < r :: !Less(cursor, all[j].key)
    ensures (forall j | 0 <= j < |all| :: !Less(cursor, all[j].key)) ==> r == 0
  {
    if cursor == "" then 0 else FirstAfter(all, cursor, 0)
  }

  /**
   * `objects` is the page of `all` served from the resume point of `cursor`: at most a
   * page of consecutive objects, truncated exactly when objects remain after a full page,
   * and then resumable (`next`) from the last key of the page; otherwise running to the
   * end, with no cursor to resume from.
   */
  predicate IsPage(all: seq<ObjectMetadata>, cursor: string, maxKeys: int,
                   objects: seq<ObjectMetadata>, truncated: bool, next: string) {
    var start := ResumeIndex(all, cursor);
    && start + |objects| <= |all|
    && objects == all[start..start + |objects|]
    && |objects| <= PageSize(maxKeys)
    && (truncated <==> start + PageSize(maxKeys) < |all|)
    && (truncated ==> |objects| == PageSize(maxKeys) && next == objects[|objects| - 1].key)
    && (!truncated ==> objects == all[start..] && next == "")
  }

  /** One page of a listing and the cursor to resume from. */
  datatype Page = Page(objects: seq<ObjectMetadata>, truncated: bool, next: string)

  /**
   * The page-cutting both listing calls share: at most a page of consecutive objects from
   * the resume point of the cursor, truncated exactly when objects remain after a full
   * page, and then resumable from the last key of the page.
   */
  function Paginate(all: seq<ObjectMetadata>, cursor: string, maxKeys: int): (p: Page)
    ensures IsPage(all, cursor, maxKeys, p.objects, p.truncated, p.next)
  {
    var start := ResumeIndex(all, cursor);
    var endIdx := start + PageSize(maxKeys);
    var isTruncated := endIdx < |all|;
    var page := all[start..if endIdx > |all| then |all| else endIdx];
    var next := if isTruncated && |page| > 0 then page[|page| - 1].key else "";
    Page(page, isTruncated, next)
  }

  /** How the page-cutting ends in Go: with a page, or with a run-time panic in the slice expression. */
  datatype PageOutcome = Cut(page: Page) | SlicePanic

  /**
   * The page-cutting as storage.go writes it, where `startIdx + maxKeys` is a 64-bit `int`
   * sum. Past 2^63 - 1 the sum wraps to a negative end: the listing then counts as
   * truncated, the end is not clamped, and slicing from the resume point to it panics (the
   * server's recovery middleware answers 500). Otherwise the page is the one `Paginate`
   * cuts, which is the page the code evidently means in every case.
   */
  function PaginateAsWritten(all: seq<ObjectMetadata>, cursor: string, maxKeys: int): (r: PageOutcome)
    requires Numbers.IsInt64(maxKeys) && |all| <= Numbers.Int64Max
    ensures r == SlicePanic <==> ResumeIndex(all, cursor) + PageSize(maxKeys) > Numbers.Int64Max
    ensures r.Cut? ==> r.page == Paginate(all, cursor, maxKeys)
  {
    var start := ResumeIndex(all, cursor);
    var endIdx := Numbers.AddInt64(start, PageSize(maxKeys));
    var isTruncated := endIdx < |all|;
    var end := if endIdx > |all| then |all| else endIdx;
    if end < start then SlicePanic
    else
      var page := all[start..end];
      var next := if isTruncated && |page| > 0 then page[|page| - 1].key else "";
      Cut(Page(page, isTruncated, next))
  }

  /**
   * Keys `a` and `b`, marker `a`, max-keys 2^63 - 1: the resume point is 1, the end wraps,
   * and Go panics, where the page meant is `b` alone and not truncated.
   */
  lemma WrappedEndPanics(a: ObjectMetadata, b: ObjectMetadata)
    requires a.key == "a" && b.key == "b"
    ensures PaginateAsWritten([a, b], "a", Numbers.Int64Max) == SlicePanic
    ensures Paginate([a, b], "a", Numbers.Int64Max) == Page([b], false, "")
  {
    var all := [a, b];
    assert !Less("a", all[0].key) by { LessIrreflexive("a"); }
    assert Less("a", all[1].key);
    assert ResumeIndex(all, "a") == 1;
    assert all[1..] == [b];
  }

  /** What a listing call returns; V1 fills in `nextMarker`, V2 `nextContinuationToken`. */
  datatype ListResult = ListResult(
    objects: seq<ObjectMetadata>,
    isTruncated: bool,
    nextMarker: string,
    nextContinuationToken: string)

  /**
   * ListObjects (V1): at most a page of consecutive objects of the listing, starting at
   * the resume point of `marker`. The listing is truncated exactly when objects remain
   * after a full page, and then the next marker is the last key of the page.
   */
  function ListObjects(st: Store, bucket: string, prefix: string, marker: string, maxKeys: int): (r: ListResult)
    ensures IsPage(ListAll(st, bucket, prefix), marker, maxKeys, r.objects, r.isTruncated, r.nextMarker)
    ensures r.nextContinuationToken == ""
  {
    var p := Paginate(ListAll(st, bucket, prefix), marker, maxKeys);
    ListResult(p.objects, p.truncated, p.next, "")
  }

  /** ListObjectsV2: the same page, with the cursor called a continuation token. */
  function ListObjectsV2(st: Store, bucket: string, prefix: string, token: string, maxKeys: int): (r: ListResult)
    ensures IsPage(ListAll(st, bucket, prefix), token, maxKeys, r.objects, r.isTruncated, r.nextContinuationToken)
    ensures r.nextMarker == ""
  {
    var p := Paginate(ListAll(st, bucket, prefix), token, maxKeys);
    ListResult(p.objects, p.truncated, "", p.next)
  }

  /** V1 and V2 cut the same page from the same cursor. */
  lemma V1AgreesWithV2(st: Store, bucket: string, prefix: string, cursor: string, maxKeys: int)
    ensures var v1 := ListObjects(st, bucket, prefix, cursor, maxKeys);
      var v2 := ListObjectsV2(st, bucket, prefix, cursor, maxKeys);
      v1.objects == v2.objects && v1.isTruncated == v2.isTruncated && v1.nextMarker == v2.nextContinuationToken
  {
  }

  /** A bucket with no objects (in particular one never written) lists as one empty page. */
  lemma EmptyBucketListsNothing(st: Store, bucket: string, prefix: string, marker: string, maxKeys: int)
    requires forall s | s in st.records :: s.bucket != bucket
    ensures ListObjects(st, bucket, prefix, marker, maxKeys) == ListResult([], false, "", "")
  {
  }

  /** The empty prefix lists every object of the bucket. */
  lemma EmptyPrefixListsAll(st: Store, bucket: string)
    ensures forall k | Slot(bucket, k) in st.records :: k in Keys(ListAll(st, bucket, ""))
  {
    ListAllComplete(st, bucket, "");
    forall k | Slot(bucket, k) in st.records ensures k in Keys(ListAll(st, bucket, "")) {
      assert HasPrefix(k, "");
    }
  }

  /**
   * In an ascending listing the resume point splits it at the cursor: keys before it are
   * at most the cursor, keys from it on are greater. So a cursor naming a key that has since
   * been deleted still resumes in the right place.
   */
  lemma {:induction false} ResumeSplitsAtCursor(all: seq<ObjectMetadata>, cursor: string)
    requires AscendingKeys(all) && cursor != ""
    requires exists j | 0 <= j < |all| :: Less(cursor, all[j].key)
    ensures var r := ResumeIndex(all, cursor);
      && (forall j | 0 <= j < r :: !Less(cursor, all[j].key))
      && (forall j | r <= j < |all| :: Less(cursor, all[j].key))
  {
    var r := ResumeIndex(all, cursor);
    forall j | r < j < |all| ensures Less(cursor, all[j].key) {
      LessTransitive(cursor, all[r].key, all[j].key);
    }
  }

  /**
   * A cursor greater than or equal to every key resumes at the start: the listing begins
   * again rather than coming back empty.
   */
  lemma MarkerPastEndRestarts(st: Store, bucket: string, prefix: string, marker: string, maxKeys: int)
    requires forall i | 0 <= i < |ListAll(st, bucket, prefix)| :: !Less(marker, ListAll(st, bucket, prefix)[i].key)
    ensures ListObjects(st, bucket, prefix, marker, maxKeys) == ListObjects(st, bucket, prefix, "", maxKeys)
  {
  }

  /** Resuming after the key at position `i` of an ascending listing resumes at `i + 1`. */
  lemma {:induction false} ResumeAfterKey(all: seq<ObjectMetadata>, i: nat)
    requires AscendingKeys(all) && i + 1 < |all| && all[i].key != ""
    ensures ResumeIndex(all, all[i].key) == i + 1
  {
    var cursor := all[i].key;
    assert Less(cursor, all[i + 1].key);
    var r := ResumeIndex(all, cursor);
    if r < i {
      LessAsymmetric(all[r].key, cursor);
    } else if r == i {
      LessIrreflexive(cursor);
    }
  }

  /** No key of a listing is empty when the bucket holds no object under the empty key. */
  predicate NoEmptyKey(all: seq<ObjectMetadata>) {
    forall i | 0 <= i < |all| :: all[i].key != ""
  }

  lemma ListedKeysNonEmpty(st: Store, bucket: string, prefix: string)
    requires Slot(bucket, "") !in st.records
    ensures NoEmptyKey(ListAll(st, bucket, prefix))
  {
    ListAllSound(st, bucket, prefix);
  }

  /**
   * After a truncated page, resuming from its cursor starts right after the page, so the
   * rest of the listing is the page followed by what the next call starts from.
   */
  lemma PageAdvances(all: seq<ObjectMetadata>, cursor: string, maxKeys: int)
    requires AscendingKeys(all) && NoEmptyKey(all)
    requires Paginate(all, cursor, maxKeys).truncated
    ensures var p := Paginate(all, cursor, maxKeys);
      var start := ResumeIndex(all, cursor);
      && ResumeIndex(all, p.next) == start + |p.objects|
      && all[start..] == p.objects + all[start + |p.objects|..]
      && all[start..] == p.objects + all[ResumeIndex(all, p.next)..]
  {
    var p := Paginate(all, cursor, maxKeys);
    var start := ResumeIndex(all, cursor);
    var end := start + |p.objects|;
    assert end < |all| && p.objects == all[start..end] && p.next == all[end - 1].key;
    ResumeAfterKey(all, end - 1);
    SliceSplit(all, start, end);
  }

  lemma SliceSplit(s: seq<ObjectMetadata>, i: nat, j: nat)
    requires i <= j <= |s|
    ensures s[i..] == s[i..j] + s[j..]
  {
  }

  /**
   * A client's walk through a V1 listing from `marker`: list, and while the page is
   * truncated, list again from its NextMarker. It yields the listing from the resume point
   * on. The empty key is excluded: it sorts first, so as the last key of a one-object page
   * it would be an empty NextMarker, which restarts the listing.
   */
  function DrainV1(st: Store, bucket: string, prefix: string, marker: string, maxKeys: int): (objs: seq<ObjectMetadata>)
    requires Slot(bucket, "") !in st.records
    ensures var all := ListAll(st, bucket, prefix); objs == all[ResumeIndex(all, marker)..]
    decreases |ListAll(st, bucket, prefix)| - ResumeIndex(ListAll(st, bucket, prefix), marker)
  {
    var all := ListAll(st, bucket, prefix);
    var p := Paginate(all, marker, maxKeys);
    var page := ListObjects(st, bucket, prefix, marker, maxKeys);
    assert page.objects == p.objects && page.isTruncated == p.truncated && page.nextMarker == p.next;
    if !page.isTruncated then page.objects
    else
      ListedKeysNonEmpty(st, bucket, prefix);
      PageAdvances(all, marker, maxKeys);
      page.objects + DrainV1(st, bucket, prefix, page.nextMarker, maxKeys)
  }

  /** The same walk through a V2 listing, following NextContinuationToken. */
  function DrainV2(st: Store, bucket: string, prefix: string, token: string, maxKeys: int): (objs: seq<ObjectMetadata>)
    requires Slot(bucket, "") !in st.records
    ensures var all := ListAll(st, bucket, prefix); objs == all[ResumeIndex(all, token)..]
    decreases |ListAll(st, bucket, prefix)| - ResumeIndex(ListAll(st, bucket, prefix), token)
  {
    var all := ListAll(st, bucket, prefix);
    var p := Paginate(all, token, maxKeys);
    var page := ListObjectsV2(st, bucket, prefix, token, maxKeys);
    assert page.objects == p.objects && page.isTruncated == p.truncated && page.nextContinuationToken == p.next;
    if !page.isTruncated then page.objects
    else
      ListedKeysNonEmpty(st, bucket, prefix);
      PageAdvances(all, token, maxKeys);
      page.objects + DrainV2(st, bucket, prefix, page.nextContinuationToken, maxKeys)
  }

  /**
   * Walking a listing from the start yields every prefixed key of the bucket exactly once,
   * in ascending order, whatever the page size, through either listing call.
   */
  lemma PaginationComplete(st: Store, bucket: string, prefix: string, maxKeys: int)
    requires Slot(bucket, "") !in st.records
    ensures DrainV1(st, bucket, prefix, "", maxKeys) == ListAll(st, bucket, prefix)
    ensures DrainV2(st, bucket, prefix, "", maxKeys) == ListAll(st, bucket, prefix)
    ensures var keys := Keys(DrainV1(st, bucket, prefix, "", maxKeys));
      && Sorting.StrictlyAscending(keys)
      && forall k :: k in keys <==> Slot(bucket, k) in st.records && HasPrefix(k, prefix)
  {
    var all := ListAll(st, bucket, prefix);
    assert all[0..] == all;
    assert DrainV1(st, bucket, prefix, "", maxKeys) == all;
    assert DrainV2(st, bucket, prefix, "", maxKeys) == all;
    ListAllExact(st, bucket, prefix);
  }

  /** The keys of the listing ascend strictly and are exactly the bucket's keys with the prefix. */
  lemma ListAllExact(st: Store, bucket: string, prefix: string)
    ensures var keys := Keys(ListAll(st, bucket, prefix));
      && Sorting.StrictlyAscending(keys)
      && forall k :: k in keys <==> Slot(bucket, k) in st.records && HasPrefix(k, prefix)
  {
    var all := ListAll(st, bucket, prefix);
    var keys := Keys(all);
    ListAllComplete(st, bucket, prefix);
    forall k | k in keys ensures Slot(bucket, k) in st.records && HasPrefix(k, prefix) {
      var i :| 0 <= i < |keys| && keys[i] == k;
      assert all[i].key == k;
    }
  }
}

=== FILE: multipart.dfy ===
/**
 * The multipart-upload lifecycle: CreateMultipartUpload, UploadPart, ListParts,
 * CompleteMultipartUpload and AbortMultipartUpload.
 *
 * A session is found by (bucket, upload id) alone: every operation takes the object key
 * but none uses it to find the session, and completion writes the object under the key it
 * is given, not the one the session was created for.
 */
module Multipart {
  import opened Results
  import Numbers
  import Text
  import Sorting
  import opened Storage

  /** The random component of ids and ETags: a nanosecond clock reading in lower-case hex. */
  function RandomId(clock: int): (id: string)
    ensures clock >= 0 ==> '-' !in id && Numbers.AllHexDigits(id) && Numbers.HexValue(id) == clock
  {
    Numbers.Hex(clock)
  }

  /** A new upload id: one nanosecond clock reading in decimal, a dash, a random id from another. */
  function NewUploadId(clock: int, randomClock: int): string {
    Numbers.Decimal(clock) + "-" + RandomId(randomClock)
  }

  /** An id made from readings after 1970 splits at its one dash back into its two parts. */
  lemma UploadIdParts(clock: int, randomClock: int)
    requires clock >= 0 && randomClock >= 0
    ensures Text.Split(NewUploadId(clock, randomClock), '-') == [Numbers.Decimal(clock), RandomId(randomClock)]
  {
    var pieces := [Numbers.Decimal(clock), RandomId(randomClock)];
    assert pieces[1..] == [RandomId(randomClock)];
    assert Text.Join(pieces, '-') == NewUploadId(clock, randomClock);
    Text.SplitJoin(pieces, '-');
  }

  /** Distinct pairs of clock readings (after 1970) give distinct upload ids. */
  lemma UploadIdDeterminesClocks(a: int, b: int, c: int, d: int)
    requires a >= 0 && b >= 0 && c >= 0 && d >= 0
    requires NewUploadId(a, b) == NewUploadId(c, d)
    ensures a == c && b == d
  {
    UploadIdParts(a, b);
    UploadIdParts(c, d);
    assert Numbers.Decimal(a) == Numbers.Decimal(c);
    assert RandomId(b) == RandomId(d);
  }

  /**
   * CreateMultipartUpload: records a session under an id made from two clock readings.
   * Should a session already live under that id, only its record is rewritten and its
   * parts stay.
   */
  function CreateMultipartUpload(
    st: Store, bucket: string, key: string, contentType: string, metadata: map<string, string>,
    clock: int, randomClock: int, created: Instant): (r: Step<MultipartUpload>)
    ensures r.result.Ok?
    ensures var up := r.result.value;
      var uploadId := up.uploadId;
      && uploadId == NewUploadId(clock, randomClock) && up.bucket == bucket && up.key == key
      && up.contentType == contentType && up.metadata == metadata && up.created == created
    ensures var us := UploadSlot(bucket, r.result.value.uploadId);
      && us in r.store.uploads
      && r.store.uploads[us].upload == r.result.value
      && (us !in st.uploads ==> r.store.uploads[us].parts == map[])
      && (us in st.uploads ==> r.store.uploads[us].parts == st.uploads[us].parts)
      && forall u | u != us ::
        (u in r.store.uploads <==> u in st.uploads) && (u in st.uploads ==> r.store.uploads[u] == st.uploads[u])
    ensures r.store.contents == st.contents && r.store.records == st.records
  {
    var uploadId := NewUploadId(clock, randomClock);
    var us := UploadSlot(bucket, uploadId);
    var upload := MultipartUpload(uploadId, bucket, key, created, contentType, metadata);
    var parts := if us in st.uploads then st.uploads[us].parts else map[];
    Step(Ok(upload), st.(uploads := st.uploads[us := Session(upload, parts)]))
  }

  /**
   * UploadPart: stores the part's bytes under its number, replacing any earlier part with
   * that number, with the hash of the bytes as its ETag and the byte count as its size.
   */
  function UploadPart(
    st: Store, bucket: string, key: string, uploadId: string,
    partNumber: int, data: Bytes, hash: Bytes -> string): (r: Step<Part>)
    ensures UploadSlot(bucket, uploadId) !in st.uploads <==> r.result.Err?
    ensures r.result.Err? ==> r.result.error == UploadNotFound(uploadId) && r.store == st
    ensures r.result.Ok? ==>
      var us := UploadSlot(bucket, uploadId);
      && r.result.value == Part(partNumber, hash(data), |data|)
      && us in r.store.uploads
      && r.store.uploads[us].upload == st.uploads[us].upload
      && r.store.uploads[us].parts == st.uploads[us].parts[partNumber := StoredPart(data, hash(data))]
      && r.store.contents == st.contents && r.store.records == st.records
      && forall u | u != us :: (u in r.store.uploads <==> u in st.uploads) && (u in st.uploads ==> r.store.uploads[u] == st.uploads[u])
  {
    var us := UploadSlot(bucket, uploadId);
    if us !in st.uploads then Step(Err(UploadNotFound(uploadId)), st)
    else
      var session := st.uploads[us];
      var stored := StoredPart(data, hash(data));
      var session' := session.(parts := session.parts[partNumber := stored]);
      Step(Ok(Part(partNumber, stored.etag, |data|)), st.(uploads := st.uploads[us := session']))
  }

  function PartNumbers(parts: seq<Part>): (ns: seq<int>)
    ensures |ns| == |parts| && forall i | 0 <= i < |parts| :: ns[i] == parts[i].partNumber
  {
    seq(|parts|, i requires 0 <= i < |parts| => parts[i].partNumber)
  }

  /** The stored parts as reported: number, recorded ETag, byte count. */
  function Describe(parts: map<int, StoredPart>, numbers: seq<int>): (r: seq<Part>)
    requires forall i | 0 <= i < |numbers| :: numbers[i] in parts
    ensures |r| == |numbers|
    ensures forall i | 0 <= i < |numbers| ::
      r[i] == Part(numbers[i], parts[numbers[i]].etag, |parts[numbers[i]].data|)
  {
    seq(|numbers|, i requires 0 <= i < |numbers| => Part(numbers[i], parts[numbers[i]].etag, |parts[numbers[i]].data|))
  }

  /**
   * ListParts: every stored part, in increasing part-number order, each with its recorded
   * ETag and its size.
   */
  function ListParts(st: Store, bucket: string, key: string, uploadId: string): (r: Result<seq<Part>, StorageError>)
    ensures UploadSlot(bucket, uploadId) !in st.uploads <==> r == Err(UploadNotFound(uploadId))
    ensures UploadSlot(bucket, uploadId) in st.uploads ==> r.Ok?
    ensures r.Ok? ==>
      var parts := st.uploads[UploadSlot(bucket, uploadId)].parts;
      && Sorting.Increasing(PartNumbers(r.value))
      && (forall n :: n in parts <==> n in PartNumbers(r.value))
      && forall i | 0 <= i < |r.value| ::
        && r.value[i].partNumber in parts
        && r.value[i].etag == parts[r.value[i].partNumber].etag
        && r.value[i].size == |parts[r.value[i].partNumber].data|
  {
    var us := UploadSlot(bucket, uploadId);
    if us !in st.uploads then Err(UploadNotFound(uploadId))
    else
      var parts := st.uploads[us].parts;
      var numbers := Sorting.SortIntSet(parts.Keys);
      var listed := Describe(parts, numbers);
      assert PartNumbers(listed) == numbers;
      Ok(listed)
  }

  /** Every part number in `order` has a stored part. */
  predicate AllStored(parts: map<int, StoredPart>, order: seq<int>) {
    forall i | 0 <= i < |order| :: order[i] in parts
  }

  /** The bytes of the named parts, one after another in the given order. */
  function Concat(parts: map<int, StoredPart>, order: seq<int>): Bytes
    requires AllStored(parts, order)
  {
    if order == [] then [] else parts[order[0]].data + Concat(parts, order[1..])
  }

  /** The sum of the sizes of the named parts, as ListParts reports them. */
  function SumSizes(parts: map<int, StoredPart>, order: seq<int>): nat
    requires AllStored(parts, order)
  {
    if order == [] then 0 else |parts[order[0]].data| + SumSizes(parts, order[1..])
  }

  lemma {:induction false} ConcatLength(parts: map<int, StoredPart>, order: seq<int>)
    requires AllStored(parts, order)
    ensures |Concat(parts, order)| == SumSizes(parts, order)
    decreases |order|
  {
    if order != [] {
      ConcatLength(parts, order[1..]);
    }
  }

  lemma {:induction false} ConcatAppend(parts: map<int, StoredPart>, order: seq<int>, n: int)
    requires AllStored(parts, order) && n in parts
    ensures AllStored(parts, order + [n])
    ensures Concat(parts, order + [n]) == Concat(parts, order) + parts[n].data
    decreases |order|
  {
    if order == [] {
      assert [n][1..] == [];
    } else {
      assert (order + [n])[1..] == order[1..] + [n];
      ConcatAppend(parts, order[1..], n);
    }
  }

  /**
   * The position of the first part number in `order` with no stored part, or `|order|`
   * when every one is stored.
   */
  function FirstMissing(parts: map<int, StoredPart>, order: seq<int>): (k: nat)
    ensures k <= |order| && AllStored(parts, order[..k])
    ensures k < |order| ==> order[k] !in parts
    ensures k == |order| <==> AllStored(parts, order)
    decreases |order|
  {
    if order == [] then 0
    else if order[0] !in parts then 0
    else
      var k := FirstMissing(parts, order[1..]);
      assert order[..k + 1] == [order[0]] + order[1..][..k];
      k + 1
  }

  /** How the copy loop ends: all parts copied, or stopped at a missing part. */
  datatype Assembly = Assembled(data: Bytes) | Missing(partNumber: int, written: Bytes)

  /**
   * The copy loop of completion: appends each part in `order` to what is `written`
   * so far, and stops at the first part number with no stored part, leaving what was
   * written before it.
   */
  function Assemble(parts: map<int, StoredPart>, order: seq<int>, written: Bytes): (r: Assembly)
    ensures var k := FirstMissing(parts, order);
      if k == |order| then r == Assembled(written + Concat(parts, order))
      else r == Missing(order[k], written + Concat(parts, order[..k]))
    decreases |order|
  {
    if order == [] then
      assert written + [] == written;
      Assembled(written)
    else if order[0] !in parts then
      assert order[..0] == [];
      assert written + [] == written;
      Missing(order[0], written)
    else
      var head := parts[order[0]].data;
      var r := Assemble(parts, order[1..], written + head);
      var k := FirstMissing(parts, order[1..]);
      ConcatPrefixStep(parts, order, k);
      assert written + head + Concat(parts, order[1..][..k]) == written + Concat(parts, order[..k + 1]);
      assert k + 1 == |order| ==> order[..k + 1] == order;
      r
  }

  /** The bytes of the first k+1 named parts are the first part's bytes followed by those of the next k. */
  lemma ConcatPrefixStep(parts: map<int, StoredPart>, order: seq<int>, k: nat)
    requires 0 < |order| && order[0] in parts && k < |order|
    requires AllStored(parts, order[1..][..k])
    ensures AllStored(parts, order[..k + 1])
    ensures Concat(parts, order[..k + 1]) == parts[order[0]].data + Concat(parts, order[1..][..k])
  {
    var prefix := order[..k + 1];
    assert prefix[0] == order[0] && prefix[1..] == order[1..][..k];
  }

  /** The multipart ETag: a random id and the number of listed parts, in double quotes. */
  function MultipartETag(randomClock: int, partCount: nat): string {
    "\"" + RandomId(randomClock) + "-" + Numbers.Decimal(partCount) + "\""
  }

  /** The listed part numbers in ascending order, repetitions kept. */
  function SortedNumbers(parts: seq<Part>): (order: seq<int>)
    ensures Sorting.Ascending(order) && multiset(order) == multiset(PartNumbers(parts))
  {
    Sorting.InsertionSort(PartNumbers(parts))
  }

  /** Every listed part number has a stored part. */
  predicate AllListedStored(stored: map<int, StoredPart>, parts: seq<Part>) {
    forall i | 0 <= i < |parts| :: parts[i].partNumber in stored
  }

  lemma AllStoredSorted(stored: map<int, StoredPart>, parts: seq<Part>)
    ensures AllStored(stored, SortedNumbers(parts)) <==> AllListedStored(stored, parts)
  {
    var order := SortedNumbers(parts);
    var numbers := PartNumbers(parts);
    assert forall n :: n in order <==> n in numbers by {
      forall n ensures n in order <==> n in numbers {
        assert n in order <==> n in multiset(order);
        assert n in numbers <==> n in multiset(numbers);
      }
    }
    if AllListedStored(stored, parts) {
      forall i | 0 <= i < |order| ensures order[i] in stored {
        assert order[i] in numbers;
        var j :| 0 <= j < |numbers| && numbers[j] == order[i];
      }
    }
    if AllStored(stored, order) {
      forall i | 0 <= i < |parts| ensures parts[i].partNumber in stored {
        assert numbers[i] in order;
        var j :| 0 <= j < |order| && order[j] == numbers[i];
      }
    }
  }

  /**
   * CompleteMultipartUpload. Without a session it fails and changes nothing. Otherwise it
   * empties the object's bytes, sorts the listed part numbers and copies the parts in
   * that order (a number listed twice is copied twice; the listed ETags are not looked
   * at). All present: the object's record is written with the session's content type and
   * metadata, and the session is removed. A part missing: it fails, leaving the bytes copied
   * so far as the object's content, the metadata record as it was, and the session.
   */
  function CompleteMultipartUpload(
    st: Store, bucket: string, key: string, uploadId: string,
    parts: seq<Part>, randomClock: int, now: Instant): (r: Step<ObjectMetadata>)
    ensures UploadSlot(bucket, uploadId) !in st.uploads ==> r == Step(Err(UploadNotFound(uploadId)), st)
    ensures UploadSlot(bucket, uploadId) in st.uploads ==>
      var session := st.uploads[UploadSlot(bucket, uploadId)];
      var slot := Slot(bucket, key);
      && (r.result.Ok? <==> AllListedStored(session.parts, parts))
      && (r.result.Ok? ==>
        && AllStored(session.parts, SortedNumbers(parts))
        && slot in r.store.contents && slot in r.store.records
        && r.store.contents[slot] == Concat(session.parts, SortedNumbers(parts))
        && r.result.value == Storage.Describe(key, r.store.records[slot])
        && r.result.value.size == |r.store.contents[slot]|
        && r.result.value.contentType == session.upload.contentType
        && r.result.value.metadata == session.upload.metadata
        && r.result.value.etag == MultipartETag(randomClock, |parts|)
        && r.result.value.lastModified == now
        && r.store.uploads == st.uploads - {UploadSlot(bucket, uploadId)})
      && (r.result.Err? ==>
        && r.store.uploads == st.uploads
        && r.store.records == st.records
        && slot in r.store.contents
        && var order := SortedNumbers(parts);
          var k := FirstMissing(session.parts, order);
          && k < |order|
          && r.result.error == PartUnreadable(order[k])
          && r.store.contents[slot] == Concat(session.parts, order[..k]))
    ensures forall s | s != Slot(bucket, key) :: SameObject(st, r.store, s)
  {
    var us := UploadSlot(bucket, uploadId);
    if us !in st.uploads then Step(Err(UploadNotFound(uploadId)), st)
    else
      var order := SortedNumbers(parts);
      AllStoredSorted(st.uploads[us].parts, parts);
      Finish(st, us, Slot(bucket, key), order, Assemble(st.uploads[us].parts, order, []),
             MultipartETag(randomClock, |parts|), now)
  }

  /**
   * The end of completion once the copy loop `copied` has run over `order`: record and
   * session removal on success, the partial bytes alone on a missing part.
   */
  function Finish(st: Store, us: UploadSlot, slot: Slot, order: seq<int>,
                  copied: Assembly, etag: string, now: Instant): (r: Step<ObjectMetadata>)
    requires us in st.uploads
    requires copied == Assemble(st.uploads[us].parts, order, [])
    ensures var session := st.uploads[us];
      && (r.result.Ok? <==> AllStored(session.parts, order))
      && (r.result.Ok? ==>
        && slot in r.store.contents && slot in r.store.records
        && r.store.contents[slot] == Concat(session.parts, order)
        && r.result.value == Storage.Describe(slot.key, r.store.records[slot])
        && r.result.value.size == |r.store.contents[slot]|
        && r.result.value.contentType == session.upload.contentType
        && r.result.value.metadata == session.upload.metadata
        && r.result.value.etag == etag
        && r.result.value.lastModified == now
        && r.store.uploads == st.uploads - {us})
      && (r.result.Err? ==>
        && r.store.uploads == st.uploads
        && r.store.records == st.records
        && slot in r.store.contents
        && var k := FirstMissing(session.parts, order);
          && k < |order|
          && r.result.error == PartUnreadable(order[k])
          && r.store.contents[slot] == Concat(session.parts, order[..k]))
    ensures forall s | s != slot :: SameObject(st, r.store, s)
  {
    var session := st.uploads[us];
    var k := FirstMissing(session.parts, order);
    assert [] + Concat(session.parts, order[..k]) == Concat(session.parts, order[..k]);
    if copied.Missing? then
      Step(Err(PartUnreadable(copied.partNumber)), st.(contents := st.contents[slot := copied.written]))
    else
      var data := copied.data;
      assert [] + Concat(session.parts, order) == Concat(session.parts, order);
      var rec := Record(|data|, now, etag, session.upload.contentType, session.upload.metadata);
      Step(Ok(Storage.Describe(slot.key, rec)),
           Store(st.contents[slot := data], st.records[slot := rec], st.uploads - {us}))
  }

  /** AbortMultipartUpload: removes the session and its parts; an unknown id is not an error. */
  function AbortMultipartUpload(st: Store, bucket: string, key: string, uploadId: string): (r: Step<()>)
    ensures r.result.Ok?
    ensures UploadSlot(bucket, uploadId) !in r.store.uploads
    ensures r.store.contents == st.contents && r.store.records == st.records
    ensures forall u | u != UploadSlot(bucket, uploadId) ::
      (u in r.store.uploads <==> u in st.uploads) && (u in st.uploads ==> r.store.uploads[u] == st.uploads[u])
  {
    Step(Ok(()), st.(uploads := st.uploads - {UploadSlot(bucket, uploadId)}))
  }

  // Properties of the lifecycle.

  /** A freshly created session has no parts. */
  lemma CreateThenListPartsEmpty(
    st: Store, bucket: string, key: string, contentType: string, metadata: map<string, string>,
    clock: int, randomClock: int, created: Instant)
    requires UploadSlot(bucket, NewUploadId(clock, randomClock)) !in st.uploads
    ensures var c := CreateMultipartUpload(st, bucket, key, contentType, metadata, clock, randomClock, created);
      ListParts(c.store, bucket, key, c.result.value.uploadId) == Ok([])
  {
  }

  /**
   * After an upload the listing shows the part with the hash of its bytes and their count,
   * and every other part as it was listed before.
   */
  lemma UploadThenListParts(
    st: Store, bucket: string, key: string, uploadId: string, n: int, data: Bytes, hash: Bytes -> string)
    requires UploadSlot(bucket, uploadId) in st.uploads
    ensures var st' := UploadPart(st, bucket, key, uploadId, n, data, hash).store;
      var listed := ListParts(st', bucket, key, uploadId);
      && listed.Ok?
      && Part(n, hash(data), |data|) in listed.value
      && forall p | p in listed.value && p.partNumber != n :: p in ListParts(st, bucket, key, uploadId).value
  {
    var us := UploadSlot(bucket, uploadId);
    var st' := UploadPart(st, bucket, key, uploadId, n, data, hash).store;
    assert st'.uploads[us].parts == st.uploads[us].parts[n := StoredPart(data, hash(data))];
    PartListed(st', bucket, key, uploadId, n);
    forall p | p in ListParts(st', bucket, key, uploadId).value && p.partNumber != n
      ensures p in ListParts(st, bucket, key, uploadId).value
    {
      ListedPartStored(st', bucket, key, uploadId, p);
      PartListed(st, bucket, key, uploadId, p.partNumber);
    }
  }

  /** Every stored part appears in the listing, as stored. */
  lemma PartListed(st: Store, bucket: string, key: string, uploadId: string, n: int)
    requires UploadSlot(bucket, uploadId) in st.uploads
    requires n in st.uploads[UploadSlot(bucket, uploadId)].parts
    ensures var stored := st.uploads[UploadSlot(bucket, uploadId)].parts[n];
      && ListParts(st, bucket, key, uploadId).Ok?
      && Part(n, stored.etag, |stored.data|) in ListParts(st, bucket, key, uploadId).value
  {
    var listed := ListParts(st, bucket, key, uploadId).value;
    assert n in PartNumbers(listed);
    var i :| 0 <= i < |listed| && PartNumbers(listed)[i] == n;
    assert listed[i].partNumber == n;
  }

  /** Every listed part is a stored part, as stored. */
  lemma ListedPartStored(st: Store, bucket: string, key: string, uploadId: string, p: Part)
    requires ListParts(st, bucket, key, uploadId).Ok?
    requires p in ListParts(st, bucket, key, uploadId).value
    ensures var parts := st.uploads[UploadSlot(bucket, uploadId)].parts;
      && p.partNumber in parts
      && p == Part(p.partNumber, parts[p.partNumber].etag, |parts[p.partNumber].data|)
  {
    var listed := ListParts(st, bucket, key, uploadId).value;
    var i :| 0 <= i < |listed| && listed[i] == p;
  }

  /** Sessions are found by bucket and upload id: the key passed along is not looked at. */
  lemma SessionIgnoresKey(
    st: Store, bucket: string, key1: string, key2: string, uploadId: string,
    n: int, data: Bytes, hash: Bytes -> string)
    ensures ListParts(st, bucket, key1, uploadId) == ListParts(st, bucket, key2, uploadId)
    ensures UploadPart(st, bucket, key1, uploadId, n, data, hash) == UploadPart(st, bucket, key2, uploadId, n, data, hash)
    ensures AbortMultipartUpload(st, bucket, key1, uploadId) == AbortMultipartUpload(st, bucket, key2, uploadId)
  {
  }

  /** Completion writes the object under the key it is given, whatever key the session was created for. */
  lemma CompleteWritesGivenKey(
    st: Store, bucket: string, key: string, uploadId: string, parts: seq<Part>, randomClock: int, now: Instant)
    requires UploadSlot(bucket, uploadId) in st.uploads
    requires AllListedStored(st.uploads[UploadSlot(bucket, uploadId)].parts, parts)
    ensures var r := CompleteMultipartUpload(st, bucket, key, uploadId, parts, randomClock, now);
      var created := st.uploads[UploadSlot(bucket, uploadId)].upload.key;
      && HeadObject(r.store, bucket, key) == Ok(r.result.value)
      && (created != key ==> HeadObject(r.store, bucket, created) == HeadObject(st, bucket, created))
  {
    var r := CompleteMultipartUpload(st, bucket, key, uploadId, parts, randomClock, now);
    var created := st.uploads[UploadSlot(bucket, uploadId)].upload.key;
    if created != key {
      assert SameObject(st, r.store, Slot(bucket, created));
    }
  }

  /** A completed upload reads back as the listed parts, concatenated in part-number order. */
  lemma CompleteThenGet(
    st: Store, bucket: string, key: string, uploadId: string, parts: seq<Part>, randomClock: int, now: Instant)
    requires UploadSlot(bucket, uploadId) in st.uploads
    requires AllListedStored(st.uploads[UploadSlot(bucket, uploadId)].parts, parts)
    ensures var r := CompleteMultipartUpload(st, bucket, key, uploadId, parts, randomClock, now);
      var stored := st.uploads[UploadSlot(bucket, uploadId)].parts;
      && AllStored(stored, SortedNumbers(parts))
      && GetObject(r.store, bucket, key) == Ok(Object(Concat(stored, SortedNumbers(parts)), r.result.value))
      && r.result.value.size == SumSizes(stored, SortedNumbers(parts))
  {
    var r := CompleteMultipartUpload(st, bucket, key, uploadId, parts, randomClock, now);
    var stored := st.uploads[UploadSlot(bucket, uploadId)].parts;
    ConcatLength(stored, SortedNumbers(parts));
  }

  /** The order in which the parts are listed does not matter. */
  lemma {:induction false} CompleteIgnoresListOrder(
    st: Store, bucket: string, key: string, uploadId: string,
    parts1: seq<Part>, parts2: seq<Part>, randomClock: int, now: Instant)
    requires multiset(PartNumbers(parts1)) == multiset(PartNumbers(parts2))
    ensures CompleteMultipartUpload(st, bucket, key, uploadId, parts1, randomClock, now)
         == CompleteMultipartUpload(st, bucket, key, uploadId, parts2, randomClock, now)
  {
    Sorting.AscendingUnique(SortedNumbers(parts1), SortedNumbers(parts2));
    assert |parts1| == |multiset(PartNumbers(parts1))| == |multiset(PartNumbers(parts2))| == |parts2|;
  }

  /** The ETags and sizes a client lists are not looked at: only the part numbers matter. */
  lemma CompleteIgnoresListedETags(
    st: Store, bucket: string, key: string, uploadId: string,
    parts1: seq<Part>, parts2: seq<Part>, randomClock: int, now: Instant)
    requires PartNumbers(parts1) == PartNumbers(parts2)
    ensures CompleteMultipartUpload(st, bucket, key, uploadId, parts1, randomClock, now)
         == CompleteMultipartUpload(st, bucket, key, uploadId, parts2, randomClock, now)
  {
    CompleteIgnoresListOrder(st, bucket, key, uploadId, parts1, parts2, randomClock, now);
  }

  /** A part listed twice is copied twice. */
  lemma CompleteCopiesRepeatedPartTwice(
    st: Store, bucket: string, key: string, uploadId: string, p: Part, q: Part, randomClock: int, now: Instant)
    requires UploadSlot(bucket, uploadId) in st.uploads
    requires p.partNumber == q.partNumber && p.partNumber in st.uploads[UploadSlot(bucket, uploadId)].parts
    ensures var r := CompleteMultipartUpload(st, bucket, key, uploadId, [p, q], randomClock, now);
      var data := st.uploads[UploadSlot(bucket, uploadId)].parts[p.partNumber].data;
      && r.result.Ok?
      && r.store.contents[Slot(bucket, key)] == data + data
      && r.result.value.size == 2 * |data|
  {
    var n := p.partNumber;
    var stored := st.uploads[UploadSlot(bucket, uploadId)].parts;
    assert PartNumbers([p, q]) == [n, n];
    Sorting.AscendingUnique(SortedNumbers([p, q]), [n, n]);
    assert [n, n][1..] == [n];
    assert Concat(stored, [n]) == stored[n].data + Concat(stored, []);
  }

  /** Any ascending arrangement of the listed part numbers is the one completion copies in. */
  lemma SortedNumbersIs(parts: seq<Part>, order: seq<int>)
    requires Sorting.Ascending(order) && multiset(order) == multiset(PartNumbers(parts))
    ensures SortedNumbers(parts) == order
  {
    Sorting.AscendingUnique(SortedNumbers(parts), order);
  }

  /** Three stored parts copied in order give their bytes one after another. */
  lemma ConcatThree(stored: map<int, StoredPart>, a: int, b: int, c: int)
    requires a in stored && b in stored && c in stored
    ensures AllStored(stored, [a, b, c])
    ensures Concat(stored, [a, b, c]) == stored[a].data + stored[b].data + stored[c].data
  {
    assert [a, b, c][1..] == [b, c] && [b, c][1..] == [c] && [c][1..] == [];
    assert Concat(stored, [c]) == stored[c].data + [];
  }

  /** Three parts uploaded in the order third, first, second into a fresh session are all stored by number. */
  lemma UploadThreeParts(
    st: Store, bucket: string, key: string, contentType: string, metadata: map<string, string>,
    clock: int, randomClock: int, created: Instant,
    n1: int, n2: int, n3: int, d1: Bytes, d2: Bytes, d3: Bytes, hash: Bytes -> string)
    requires UploadSlot(bucket, NewUploadId(clock, randomClock)) !in st.uploads
    ensures
      var c := CreateMultipartUpload(st, bucket, key, contentType, metadata, clock, randomClock, created);
      var id := c.result.value.uploadId;
      var s1 := UploadPart(c.store, bucket, key, id, n3, d3, hash).store;
      var s2 := UploadPart(s1, bucket, key, id, n1, d1, hash).store;
      var s3 := UploadPart(s2, bucket, key, id, n2, d2, hash).store;
      && UploadSlot(bucket, id) in s3.uploads
      && s3.uploads[UploadSlot(bucket, id)] == Session(c.result.value,
           map[n3 := StoredPart(d3, hash(d3))][n1 := StoredPart(d1, hash(d1))][n2 := StoredPart(d2, hash(d2))])
  {
    var c := CreateMultipartUpload(st, bucket, key, contentType, metadata, clock, randomClock, created);
    var us := UploadSlot(bucket, c.result.value.uploadId);
    assert c.store.uploads[us] == Session(c.result.value, map[]);
  }

  /**
   * Completing a session holding parts n1 < n2 < n3, listed in the order n2, n3, n1,
   * assembles them as n1, n2, n3 under the content type and metadata the session was
   * created with.
   */
  lemma CompleteThreeParts(
    st: Store, bucket: string, key: string, uploadId: string,
    n1: int, n2: int, n3: int, listed: seq<Part>, etagClock: int, now: Instant)
    requires UploadSlot(bucket, uploadId) in st.uploads
    requires n1 < n2 < n3
    requires var stored := st.uploads[UploadSlot(bucket, uploadId)].parts;
      n1 in stored && n2 in stored && n3 in stored
    requires PartNumbers(listed) == [n2, n3, n1]
    ensures
      var session := st.uploads[UploadSlot(bucket, uploadId)];
      var done := CompleteMultipartUpload(st, bucket, key, uploadId, listed, etagClock, now);
      var data := session.parts[n1].data + session.parts[n2].data + session.parts[n3].data;
      && done.result.Ok?
      && GetObject(done.store, bucket, key) == Ok(Object(data, done.result.value))
      && done.result.value.size == |data|
      && done.result.value.contentType == session.upload.contentType
      && done.result.value.metadata == session.upload.metadata
      && done.result.value.etag == MultipartETag(etagClock, 3)
      && UploadSlot(bucket, uploadId) !in done.store.uploads
  {
    var stored := st.uploads[UploadSlot(bucket, uploadId)].parts;
    assert SortedNumbers(listed) == [n1, n2, n3] by {
      assert multiset([n2, n3, n1]) == multiset([n1, n2, n3]);
      SortedNumbersIs(listed, [n1, n2, n3]);
    }
    ConcatThree(stored, n1, n2, n3);
    assert AllListedStored(stored, listed) by {
      var ns := PartNumbers(listed);
      forall i | 0 <= i < |listed| ensures listed[i].partNumber in stored {
        assert listed[i].partNumber == ns[i];
        assert i == 0 || i == 1 || i == 2;
      }
    }
    CompleteThenGet(st, bucket, key, uploadId, listed, etagClock, now);
  }

  /**
   * Parts numbered n1 < n2 < n3, uploaded in the order n3, n1, n2 and listed in the order
   * n2, n3, n1, are assembled as n1, n2, n3, under the content type and metadata given when
   * the upload was created.
   */
  lemma PartsOutOfOrder(
    st: Store, bucket: string, key: string, contentType: string, metadata: map<string, string>,
    clock: int, randomClock: int, created: Instant,
    n1: int, n2: int, n3: int, d1: Bytes, d2: Bytes, d3: Bytes,
    hash: Bytes -> string, etagClock: int, now: Instant)
    requires UploadSlot(bucket, NewUploadId(clock, randomClock)) !in st.uploads
    requires n1 < n2 < n3
    ensures
      var c := CreateMultipartUpload(st, bucket, key, contentType, metadata, clock, randomClock, created);
      var id := c.result.value.uploadId;
      var s1 := UploadPart(c.store, bucket, key, id, n3, d3, hash).store;
      var s2 := UploadPart(s1, bucket, key, id, n1, d1, hash).store;
      var s3 := UploadPart(s2, bucket, key, id, n2, d2, hash).store;
      var listed := [Part(n2, hash(d2), |d2|), Part(n3, hash(d3), |d3|), Part(n1, hash(d1), |d1|)];
      var done := CompleteMultipartUpload(s3, bucket, key, id, listed, etagClock, now);
      && done.result.Ok?
      && GetObject(done.store, bucket, key) == Ok(Object(d1 + d2 + d3, done.result.value))
      && done.result.value.size == |d1| + |d2| + |d3|
      && done.result.value.contentType == contentType
      && done.result.value.metadata == metadata
      && done.result.value.etag == MultipartETag(etagClock, 3)
  {
    UploadThreeParts(st, bucket, key, contentType, metadata, clock, randomClock, created, n1, n2, n3, d1, d2, d3, hash);
    var c := CreateMultipartUpload(st, bucket, key, contentType, metadata, clock, randomClock, created);
    var id := c.result.value.uploadId;
    var s1 := UploadPart(c.store, bucket, key, id, n3, d3, hash).store;
    var s2 := UploadPart(s1, bucket, key, id, n1, d1, hash).store;
    var s3 := UploadPart(s2, bucket, key, id, n2, d2, hash).store;
    var listed := [Part(n2, hash(d2), |d2|), Part(n3, hash(d3), |d3|), Part(n1, hash(d1), |d1|)];
    assert PartNumbers(listed) == [n2, n3, n1];
    CompleteThreeParts(s3, bucket, key, id, n1, n2, n3, listed, etagClock, now);
  }

  /**
   * A completion that stops at a missing part leaves bytes without a metadata record under
   * a key that had none: reading the object then reports unreadable metadata, while its
   * metadata alone reports no such object; the session stays and can still be completed.
   */
  lemma FailedCompletionSplitsExistence(
    st: Store, bucket: string, key: string, uploadId: string, parts: seq<Part>, randomClock: int, now: Instant)
    requires UploadSlot(bucket, uploadId) in st.uploads
    requires !AllListedStored(st.uploads[UploadSlot(bucket, uploadId)].parts, parts)
    requires Slot(bucket, key) !in st.records
    ensures var r := CompleteMultipartUpload(st, bucket, key, uploadId, parts, randomClock, now);
      && r.result.Err? && r.result.error.PartUnreadable?
      && GetObject(r.store, bucket, key) == Err(MetadataUnreadable(bucket, key))
      && HeadObject(r.store, bucket, key) == Err(ObjectNotFound(bucket, key))
      && ListParts(r.store, bucket, key, uploadId) == ListParts(st, bucket, key, uploadId)
  {
  }

  /** Creating, uploading to and aborting a session leave objects alone, so they keep the store consistent. */
  lemma SessionsKeepConsistent(
    st: Store, bucket: string, key: string, contentType: string, metadata: map<string, string>,
    clock: int, randomClock: int, created: Instant,
    uploadId: string, n: int, data: Bytes, hash: Bytes -> string)
    requires Consistent(st)
    ensures Consistent(CreateMultipartUpload(st, bucket, key, contentType, metadata, clock, randomClock, created).store)
    ensures Consistent(UploadPart(st, bucket, key, uploadId, n, data, hash).store)
    ensures Consistent(AbortMultipartUpload(st, bucket, key, uploadId).store)
  {
    var c := CreateMultipartUpload(st, bucket, key, contentType, metadata, clock, randomClock, created).store;
    assert c.contents == st.contents && c.records == st.records;
    var u := UploadPart(st, bucket, key, uploadId, n, data, hash).store;
    assert u.contents == st.contents && u.records == st.records;
  }

  /** A successful completion writes bytes and a record of matching size, keeping the store consistent. */
  lemma CompleteKeepsConsistent(
    st: Store, bucket: string, key: string, uploadId: string, parts: seq<Part>, randomClock: int, now: Instant)
    requires Consistent(st)
    requires CompleteMultipartUpload(st, bucket, key, uploadId, parts, randomClock, now).result.Ok?
    ensures Consistent(CompleteMultipartUpload(st, bucket, key, uploadId, parts, randomClock, now).store)
  {
    var r := CompleteMultipartUpload(st, bucket, key, uploadId, parts, randomClock, now);
    var slot := Slot(bucket, key);
    forall s | s in r.store.records ensures s in r.store.contents && r.store.records[s].size == |r.store.contents[s]| {
      if s != slot {
        assert SameObject(st, r.store, s);
      } else {
        assert r.result.value == Storage.Describe(key, r.store.records[slot]);
      }
    }
    forall s | s in r.store.contents ensures s in r.store.records {
      if s != slot {
        assert SameObject(st, r.store, s);
      }
    }
  }

  /**
   * A completion that stops at a missing part breaks consistency: under a key with no
   * object it leaves bytes without a record.
   */
  lemma FailedCompletionBreaksConsistency(
    st: Store, bucket: string, key: string, uploadId: string, parts: seq<Part>, randomClock: int, now: Instant)
    requires Consistent(st)
    requires UploadSlot(bucket, uploadId) in st.uploads
    requires !AllListedStored(st.uploads[UploadSlot(bucket, uploadId)].parts, parts)
    requires Slot(bucket, key) !in st.records
    ensures !Consistent(CompleteMultipartUpload(st, bucket, key, uploadId, parts, randomClock, now).store)
  {
    var r := CompleteMultipartUpload(st, bucket, key, uploadId, parts, randomClock, now);
    assert Slot(bucket, key) in r.store.contents && Slot(bucket, key) !in r.store.records;
  }

  /** After a successful completion the session is gone. */
  lemma CompleteEndsSession(
    st: Store, bucket: string, key: string, uploadId: string, parts: seq<Part>, randomClock: int, now: Instant)
    requires UploadSlot(bucket, uploadId) in st.uploads
    requires AllListedStored(st.uploads[UploadSlot(bucket, uploadId)].parts, parts)
    ensures var st' := CompleteMultipartUpload(st, bucket, key, uploadId, parts, randomClock, now).store;
      && ListParts(st', bucket, key, uploadId) == Err(UploadNotFound(uploadId))
      && CompleteMultipartUpload(st', bucket, key, uploadId, parts, randomClock, now).result == Err(UploadNotFound(uploadId))
  {
  }

  /** After an abort nothing finds the session; aborting again changes nothing and still succeeds. */
  lemma AbortEndsSession(
    st: Store, bucket: string, key: string, uploadId: string,
    n: int, data: Bytes, hash: Bytes -> string, parts: seq<Part>, randomClock: int, now: Instant)
    ensures var st' := AbortMultipartUpload(st, bucket, key, uploadId).store;
      && ListParts(st', bucket, key, uploadId) == Err(UploadNotFound(uploadId))
      && UploadPart(st', bucket, key, uploadId, n, data, hash) == Step(Err(UploadNotFound(uploadId)), st')
      && CompleteMultipartUpload(st', bucket, key, uploadId, parts, randomClock, now) == Step(Err(UploadNotFound(uploadId)), st')
      && AbortMultipartUpload(st', bucket, key, uploadId) == Step(Ok(()), st')
  {
  }
}

=== FILE: numbers.dfy ===
/**
 * Decimal integer text: Go's `%d` formatting and `strconv.ParseInt(s, 10, 64)` (which is
 * also what `strconv.Atoi` does on a 64-bit platform).
 */
module Numbers {
  import opened Results

  const Int64Min: int := -0x8000_0000_0000_0000
  const Int64Max: int := 0x7FFF_FFFF_FFFF_FFFF
  const Uint64Max: int := 0xFFFF_FFFF_FFFF_FFFF

  predicate IsInt64(n: int) {
    Int64Min <= n <= Int64Max
  }

  const TwoTo64: int := 0x1_0000_0000_0000_0000

  /**
   * Go's `+` on `int` on a 64-bit platform: the exact sum when it fits, otherwise the sum
   * wrapped around by 2^64 (two's complement).
   */
  function AddInt64(a: int, b: int): (r: int)
    requires IsInt64(a) && IsInt64(b)
    ensures IsInt64(r) && (r - (a + b)) % TwoTo64 == 0
    ensures IsInt64(a + b) ==> r == a + b
  {
    var sum := a + b;
    if sum > Int64Max then sum - TwoTo64
    else if sum < Int64Min then sum + TwoTo64
    else sum
  }

  predicate IsDigit(c: char) {
    '0' <= c <= '9'
  }

  predicate AllDigits(s: string) {
    forall i | 0 <= i < |s| :: IsDigit(s[i])
  }

  function DigitValue(c: char): nat
    requires IsDigit(c)
  {
    c as int - '0' as int
  }

  function DigitChar(d: nat): (c: char)
    requires d < 10
    ensures IsDigit(c) && DigitValue(c) == d
  {
    ('0' as int + d) as char
  }

  /** The number a digit string denotes in base 10, most significant digit first. */
  function DigitsValue(s: string): nat
    requires AllDigits(s)
  {
    if s == [] then 0 else DigitsValue(s[..|s| - 1]) * 10 + DigitValue(s[|s| - 1])
  }

  /** The base-10 digits of `n`, without leading zeros. */
  function NaturalText(n: nat): (s: string)
    ensures 1 <= |s| && AllDigits(s)
    ensures DigitsValue(s) == n
    ensures s[0] == '0' ==> s == "0"
  {
    if n < 10 then [DigitChar(n)]
    else
      var s := NaturalText(n / 10) + [DigitChar(n % 10)];
      assert s[..|s| - 1] == NaturalText(n / 10);
      s
  }

  /** Go's `%d` of an integer: a minus sign for negative numbers, then the digits. */
  function Decimal(n: int): (s: string)
    ensures 1 <= |s|
    ensures n >= 0 ==> AllDigits(s) && '-' !in s && DigitsValue(s) == n
    ensures n < 0 ==> s[0] == '-' && AllDigits(s[1..]) && DigitsValue(s[1..]) == -n
  {
    if n < 0 then "-" + NaturalText(-n) else NaturalText(n)
  }

  /** The two ways strconv reports failure: `ErrSyntax` and `ErrRange`. */
  datatype NumError = Syntax | Range

  /**
   * The digit loop of `strconv.ParseUint(s, 10, 64)` from position `i` with `acc` read so
   * far: a non-digit is a syntax error, and a value above 2^64-1 is a range error as soon
   * as it appears, before later characters are looked at.
   */
  function ScanDigits(s: string, i: nat, acc: nat): Result<nat, NumError>
    requires i <= |s|
    decreases |s| - i
  {
    if i == |s| then Ok(acc)
    else if !IsDigit(s[i]) then Err(Syntax)
    else if acc * 10 + DigitValue(s[i]) > Uint64Max then Err(Range)
    else ScanDigits(s, i + 1, acc * 10 + DigitValue(s[i]))
  }

  /** A digit prefix never denotes more than the whole digit string. */
  lemma {:induction false} DigitsValuePrefix(s: string, k: nat)
    requires AllDigits(s) && k <= |s|
    ensures AllDigits(s[..k]) && DigitsValue(s[..k]) <= DigitsValue(s)
    decreases |s|
  {
    if k < |s| {
      var t := s[..|s| - 1];
      assert t[..k] == s[..k];
      DigitsValuePrefix(t, k);
    } else {
      assert s[..k] == s;
    }
  }

  /** Scanning from a correctly accumulated prefix yields the value of the whole string. */
  lemma {:induction false} ScanDigitsMeaning(s: string, i: nat)
    requires i <= |s| && AllDigits(s[..i]) && DigitsValue(s[..i]) <= Uint64Max
    ensures var r := ScanDigits(s, i, DigitsValue(s[..i]));
      && (r.Ok? <==> AllDigits(s) && DigitsValue(s) <= Uint64Max)
      && (r.Ok? ==> r.value == DigitsValue(s))
    decreases |s| - i
  {
    if i == |s| {
      assert s[..i] == s;
    } else if IsDigit(s[i]) {
      var next := s[..i + 1];
      assert next[..i] == s[..i];
      assert AllDigits(next);
      assert DigitsValue(next) == DigitsValue(s[..i]) * 10 + DigitValue(s[i]);
      if DigitsValue(next) > Uint64Max {
        if AllDigits(s) {
          DigitsValuePrefix(s, i + 1);
        }
      } else {
        ScanDigitsMeaning(s, i + 1);
      }
    }
  }

  /** `strconv.ParseUint(s, 10, 64)`: a non-empty digit string whose value fits in 64 bits. */
  function ParseUint64(s: string): (r: Result<nat, NumError>)
    ensures r.Ok? <==> s != [] && AllDigits(s) && DigitsValue(s) <= Uint64Max
    ensures r.Ok? ==> r.value == DigitsValue(s)
  {
    if s == [] then Err(Syntax)
    else
      assert s[..0] == [];
      ScanDigitsMeaning(s, 0);
      ScanDigits(s, 0, 0)
  }

  /** The digits after an optional leading `+` or `-`. */
  function Unsigned(s: string): string {
    if s != [] && (s[0] == '+' || s[0] == '-') then s[1..] else s
  }

  /** Text `strconv.ParseInt` accepts before range checking: an optional sign, then digits. */
  predicate IntegerText(s: string) {
    Unsigned(s) != [] && AllDigits(Unsigned(s))
  }

  /** The integer that integer text denotes. */
  function TextValue(s: string): int
    requires IntegerText(s)
  {
    var magnitude: int := DigitsValue(Unsigned(s));
    if s[0] == '-' then -magnitude else magnitude
  }

  /**
   * `strconv.ParseInt(s, 10, 64)`: optional sign, at least one digit, no other character,
   * and the value within the signed 64-bit range.
   */
  function ParseInt64(s: string): (r: Result<int, NumError>)
    ensures r.Ok? <==> IntegerText(s) && IsInt64(TextValue(s))
    ensures r.Ok? ==> r.value == TextValue(s)
  {
    if s == [] then Err(Syntax)
    else
      var neg := s[0] == '-';
      match ParseUint64(Unsigned(s))
      case Err(e) => Err(e)
      case Ok(magnitude) =>
        var u: int := magnitude;
        if !neg && u > Int64Max then Err(Range)
        else if neg && u > -Int64Min then Err(Range)
        else Ok(if neg then -u else u)
  }

  /** Parsing the `%d` text of a 64-bit integer gives the integer back. */
  lemma ParseDecimal(n: int)
    requires IsInt64(n)
    ensures ParseInt64(Decimal(n)) == Ok(n)
  {
    var s := Decimal(n);
    if n >= 0 {
      assert IsDigit(s[0]);
      assert Unsigned(s) == s;
    } else {
      assert Unsigned(s) == s[1..];
    }
  }

  /** Only integer text parses: anything with a character other than a sign or digit fails. */
  lemma ParseRejectsForeignChar(s: string, i: nat)
    requires i < |s| && !IsDigit(s[i]) && s[i] != '+' && s[i] != '-'
    ensures ParseInt64(s).Err?
  {
  }

  /** The value of any text `ParseInt64` accepts has no minus sign unless the text starts with one. */
  lemma ParseWithoutMinus(s: string)
    requires '-' !in s
    ensures ParseInt64(s).Ok? ==> ParseInt64(s).value >= 0
  {
    if s != [] {
      assert s[0] != '-';
    }
  }

  predicate IsHexDigit(c: char) {
    IsDigit(c) || 'a' <= c <= 'f'
  }

  predicate AllHexDigits(s: string) {
    forall i | 0 <= i < |s| :: IsHexDigit(s[i])
  }

  function HexDigitValue(c: char): nat
    requires IsHexDigit(c)
  {
    if IsDigit(c) then DigitValue(c) else c as int - 'a' as int + 10
  }

  function HexDigitChar(d: nat): (c: char)
    requires d < 16
    ensures IsHexDigit(c) && HexDigitValue(c) == d
  {
    if d < 10 then DigitChar(d) else ('a' as int + d - 10) as char
  }

  /** The number a lower-case hex digit string denotes, most significant digit first. */
  function HexValue(s: string): nat
    requires AllHexDigits(s)
  {
    if s == [] then 0 else HexValue(s[..|s| - 1]) * 16 + HexDigitValue(s[|s| - 1])
  }

  /** The lower-case base-16 digits of `n`, without leading zeros. */
  function NaturalHex(n: nat): (s: string)
    ensures 1 <= |s| && AllHexDigits(s)
    ensures HexValue(s) == n
    ensures s[0] == '0' ==> s == "0"
  {
    if n < 16 then [HexDigitChar(n)]
    else
      var s := NaturalHex(n / 16) + [HexDigitChar(n % 16)];
      assert s[..|s| - 1] == NaturalHex(n / 16);
      s
  }

  /** Go's `%x` of an integer: a minus sign for negative numbers, then lower-case hex digits. */
  function Hex(n: int): (s: string)
    ensures 1 <= |s|
    ensures n >= 0 ==> AllHexDigits(s) && '-' !in s && HexValue(s) == n
    ensures n < 0 ==> s[0] == '-' && AllHexDigits(s[1..]) && HexValue(s[1..]) == -n
  {
    if n < 0 then "-" + NaturalHex(-n) else NaturalHex(n)
  }
}

=== FILE: results.dfy ===
/** Outcome type shared by the model: Go's `(value, error)` return pairs become `Result`. */
module Results {

  /** Either a value or the error the operation reported instead. */
  datatype Result<+T, +E> = Ok(value: T) | Err(error: E) {

    predicate IsFailure() {
      Err?
    }

    function PropagateFailure<U>(): Result<U, E>
      requires Err?
    {
      Err(error)
    }

    function Extract(): T
      requires Ok?
    {
      value
    }
  }
}

=== FILE: sorting.dfy ===
/**
 * Ascending sequences built from sets (keys of a listing, part numbers of a session) and
 * sorting of a sequence of part numbers, as Go's `sort.Slice` does for the source.
 */
module Sorting {
  import opened StringOrder

  /** Each element is strictly less than every later one. */
  predicate StrictlyAscending(s: seq<string>) {
    forall i, j | 0 <= i < j < |s| :: Less(s[i], s[j])
  }

  predicate IsLeastString(m: string, s: set<string>) {
    m in s && forall k | k in s && k != m :: Less(m, k)
  }

  lemma {:induction false} LeastStringExists(s: set<string>)
    requires s != {}
    ensures exists m :: IsLeastString(m, s)
    decreases s
  {
    if forall y :: y !in s {
      assert false;
    }
    var x :| x in s;
    var rest := s - {x};
    if rest == {} {
      assert s == rest + {x};
      assert s == {x};
      assert IsLeastString(x, s);
    } else {
      LeastStringExists(rest);
      var m :| IsLeastString(m, rest);
      LessTotal(x, m);
      if Less(x, m) {
        forall k | k in s && k != x ensures Less(x, k) {
          if k != m {
            assert k in rest;
            LessTransitive(x, m, k);
          }
        }
        assert IsLeastString(x, s);
      } else {
        assert IsLeastString(m, s);
      }
    }
  }

  lemma LeastStringUnique(s: set<string>)
    ensures forall m, n | IsLeastString(m, s) && IsLeastString(n, s) :: m == n
  {
    forall m, n | IsLeastString(m, s) && IsLeastString(n, s) ensures m == n {
      LessAsymmetric(m, n);
    }
  }

  /** The smallest string of a non-empty set. */
  function LeastString(s: set<string>): (m: string)
    requires s != {}
    ensures IsLeastString(m, s)
  {
    LeastStringExists(s);
    LeastStringUnique(s);
    var m :| IsLeastString(m, s);
    m
  }

  /** The strings of a set in ascending order, each once. */
  function SortStrings(s: set<string>): (r: seq<string>)
    ensures StrictlyAscending(r)
    ensures forall k :: k in r <==> k in s
    decreases s
  {
    if s == {} then []
    else
      var m := LeastString(s);
      var rest := SortStrings(s - {m});
      assert forall j | 0 <= j < |rest| :: Less(m, rest[j]) by {
        forall j | 0 <= j < |rest| ensures Less(m, rest[j]) {
          assert rest[j] in s - {m};
        }
      }
      [m] + rest
  }

  /** Each element is strictly less than every later one. */
  predicate Increasing(s: seq<int>) {
    forall i, j | 0 <= i < j < |s| :: s[i] < s[j]
  }

  /** Each element is at most every later one. */
  predicate Ascending(s: seq<int>) {
    forall i, j | 0 <= i < j < |s| :: s[i] <= s[j]
  }

  predicate IsLeastInt(m: int, s: set<int>) {
    m in s && forall k | k in s :: m <= k
  }

  lemma {:induction false} LeastIntExists(s: set<int>)
    requires s != {}
    ensures exists m :: IsLeastInt(m, s)
    decreases s
  {
    if forall y :: y !in s {
      assert false;
    }
    var x :| x in s;
    var rest := s - {x};
    if rest == {} {
      assert s == rest + {x};
      assert s == {x};
      assert IsLeastInt(x, s);
    } else {
      LeastIntExists(rest);
      var m :| IsLeastInt(m, rest);
      var w := if x <= m then x else m;
      assert IsLeastInt(w, s) by {
        forall k | k in s ensures w <= k {
          if k != x {
            assert k in rest;
          }
        }
      }
    }
  }

  /** The smallest integer of a non-empty set. */
  function LeastInt(s: set<int>): (m: int)
    requires s != {}
    ensures IsLeastInt(m, s)
  {
    LeastIntExists(s);
    var m :| IsLeastInt(m, s);
    m
  }

  /** The integers of a set in increasing order, each once. */
  function SortIntSet(s: set<int>): (r: seq<int>)
    ensures Increasing(r)
    ensures forall k :: k in r <==> k in s
    decreases s
  {
    if s == {} then []
    else
      var m := LeastInt(s);
      var rest := SortIntSet(s - {m});
      assert forall j | 0 <= j < |rest| :: m < rest[j] by {
        forall j | 0 <= j < |rest| ensures m < rest[j] {
          assert rest[j] in s - {m};
        }
      }
      [m] + rest
  }

  /** `x` placed into an ascending sequence before the first larger element. */
  function Insert(x: int, s: seq<int>): (r: seq<int>)
    requires Ascending(s)
    ensures Ascending(r)
    ensures multiset(r) == multiset(s) + multiset{x}
  {
    if s == [] || x <= s[0] then [x] + s
    else
      var rest := Insert(x, s[1..]);
      assert s == [s[0]] + s[1..];
      BoundKept(s[0], rest, s[1..], x);
      ConsAscending(s[0], rest);
      [s[0]] + rest
  }

  /** A lower bound of `t` and of `x` bounds every element of a rearrangement of `t` plus `x`. */
  lemma BoundKept(y: int, rest: seq<int>, t: seq<int>, x: int)
    requires Ascending(t) && y <= x
    requires forall j | 0 <= j < |t| :: y <= t[j]
    requires multiset(rest) == multiset(t) + multiset{x}
    ensures forall j | 0 <= j < |rest| :: y <= rest[j]
  {
    forall j | 0 <= j < |rest| ensures y <= rest[j] {
      assert rest[j] in multiset(rest);
      if rest[j] != x {
        assert rest[j] in multiset(t);
      }
    }
  }

  /** An ascending sequence stays ascending behind a lower bound of it. */
  lemma ConsAscending(y: int, rest: seq<int>)
    requires Ascending(rest)
    requires forall j | 0 <= j < |rest| :: y <= rest[j]
    ensures Ascending([y] + rest)
  {
  }

  /** The elements of `s` in ascending order, duplicates kept. */
  function InsertionSort(s: seq<int>): (r: seq<int>)
    ensures Ascending(r)
    ensures multiset(r) == multiset(s)
  {
    if s == [] then []
    else
      assert s == [s[0]] + s[1..];
      Insert(s[0], InsertionSort(s[1..]))
  }

  /** The first element of an ascending sequence is its least. */
  lemma AscendingHeadIsLeast(a: seq<int>, x: int)
    requires Ascending(a) && x in multiset(a)
    ensures a[0] <= x
  {
    var i :| 0 <= i < |a| && a[i] == x;
  }

  /** There is only one ascending arrangement of a multiset of integers. */
  lemma {:induction false} AscendingUnique(a: seq<int>, b: seq<int>)
    requires Ascending(a) && Ascending(b) && multiset(a) == multiset(b)
    ensures a == b
    decreases |a|
  {
    assert |a| == |multiset(a)| == |multiset(b)| == |b|;
    if a != [] {
      AscendingHeadIsLeast(b, a[0]);
      AscendingHeadIsLeast(a, b[0]);
      var ta, tb := a[1..], b[1..];
      assert a == [a[0]] + ta && b == [b[0]] + tb;
      assert multiset(ta) == multiset(tb) by {
        assert multiset(a) == multiset{a[0]} + multiset(ta);
        assert a[0] == b[0];
        assert multiset(b) == multiset{a[0]} + multiset(tb);
        assert multiset(ta) == multiset(a) - multiset{a[0]};
        assert multiset(tb) == multiset(b) - multiset{a[0]};
      }
      AscendingUnique(ta, tb);
    }
  }
}

=== FILE: storage.dfy ===
/**
 * The object-storage engine's state and its single-object operations: PutObject,
 * GetObject, HeadObject, DeleteObject, DeleteObjects and GetObjectRange.
 *
 * The engine keeps three separate areas: object bytes and metadata records, both addressed
 * by (bucket, key), and multipart sessions addressed by (bucket, upload id). They are
 * separate maps here because the engine tests them separately: reads of bytes look in the
 * content area, HeadObject looks only at the metadata record, and a failed multipart
 * completion can leave the two out of step.
 */
module Storage {
  import opened Results
  import Numbers

  /** One byte of object content. */
  type Byte = b: int | 0 <= b < 256

  type Bytes = seq<Byte>

  /** A wall-clock reading. The engine only copies these into records, never inspects them. */
  type Instant = int

  /** Where an object's bytes and its metadata record live. */
  datatype Slot = Slot(bucket: string, key: string)

  /** Where a multipart session lives. The object key plays no part in it. */
  datatype UploadSlot = UploadSlot(bucket: string, uploadId: string)

  /**
   * A persisted metadata record. The key is not repeated here: every writer stores the key
   * it was called with, so the key of a record is the key of its slot.
   */
  datatype Record = Record(
    size: int,
    lastModified: Instant,
    etag: string,
    contentType: string,
    metadata: map<string, string>)

  /** What the engine hands back about an object. */
  datatype ObjectMetadata = ObjectMetadata(
    key: string,
    size: int,
    lastModified: Instant,
    etag: string,
    contentType: string,
    metadata: map<string, string>)

  function Describe(key: string, rec: Record): (m: ObjectMetadata)
    ensures m.key == key && m.size == rec.size && m.etag == rec.etag
    ensures m.contentType == rec.contentType && m.metadata == rec.metadata
    ensures m.lastModified == rec.lastModified
  {
    ObjectMetadata(key, rec.size, rec.lastModified, rec.etag, rec.contentType, rec.metadata)
  }

  /** The session record written when a multipart upload is created. */
  datatype MultipartUpload = MultipartUpload(
    uploadId: string,
    bucket: string,
    key: string,
    created: Instant,
    contentType: string,
    metadata: map<string, string>)

  /** An uploaded part: its bytes and the hash recorded for them. Its size is the byte count. */
  datatype StoredPart = StoredPart(data: Bytes, etag: string)

  /** A multipart session: its record and its parts by part number. */
  datatype Session = Session(upload: MultipartUpload, parts: map<int, StoredPart>)

  /** A part as reported to callers, and as callers name it on completion. */
  datatype Part = Part(partNumber: int, etag: string, size: int)

  datatype Store = Store(
    contents: map<Slot, Bytes>,
    records: map<Slot, Record>,
    uploads: map<UploadSlot, Session>)

  const EmptyStore: Store := Store(map[], map[], map[])

  /** The failures the engine reports, other than those of the backing file system. */
  datatype StorageError =
    | ObjectNotFound(bucket: string, key: string)
    | MetadataUnreadable(bucket: string, key: string)
    | InvalidRange
    | UploadNotFound(uploadId: string)
    | PartUnreadable(partNumber: int)

  /** An operation's answer together with the store it leaves behind. */
  datatype Step<+T> = Step(result: Result<T, StorageError>, store: Store)

  datatype Object = Object(data: Bytes, meta: ObjectMetadata)

  /** A served byte range with the bounds actually used. */
  datatype RangeRead = RangeRead(data: Bytes, meta: ObjectMetadata, start: int, end: int)

  /** The slot `s` holds the same bytes and the same record in both stores. */
  predicate SameObject(st: Store, st': Store, s: Slot) {
    && (s in st.contents <==> s in st'.contents)
    && (s in st.contents ==> st.contents[s] == st'.contents[s])
    && (s in st.records <==> s in st'.records)
    && (s in st.records ==> st.records[s] == st'.records[s])
  }

  /**
   * PutObject's entity tag: the byte count and the Unix time in seconds, in double quotes.
   * It does not depend on the content.
   */
  function PutETag(size: nat, unixSeconds: int): string {
    "\"" + Numbers.Decimal(size) + "-" + Numbers.Decimal(unixSeconds) + "\""
  }

  /**
   * PutObject: replaces the bytes and the record of (bucket, key). The source reads the
   * clock twice, once for the ETag (`unixSeconds`) and once for the modification time
   * (`now`).
   */
  function PutObject(
    st: Store, bucket: string, key: string, data: Bytes,
    metadata: map<string, string>, contentType: string,
    unixSeconds: int, now: Instant): (r: Step<ObjectMetadata>)
    ensures r.result.Ok?
    ensures r.result.value.key == key && r.result.value.size == |data|
    ensures r.result.value.contentType == contentType && r.result.value.metadata == metadata
    ensures r.result.value.lastModified == now
    ensures r.result.value.etag == PutETag(|data|, unixSeconds)
    ensures Slot(bucket, key) in r.store.contents && r.store.contents[Slot(bucket, key)] == data
    ensures Slot(bucket, key) in r.store.records
    ensures forall s | s != Slot(bucket, key) :: SameObject(st, r.store, s)
    ensures r.store.uploads == st.uploads
  {
    var slot := Slot(bucket, key);
    var rec := Record(|data|, now, PutETag(|data|, unixSeconds), contentType, metadata);
    Step(Ok(Describe(key, rec)),
         st.(contents := st.contents[slot := data], records := st.records[slot := rec]))
  }

  /**
   * GetObject: the object is there when its bytes are; a missing metadata record is then a
   * read failure, not "not found".
   */
  function GetObject(st: Store, bucket: string, key: string): (r: Result<Object, StorageError>)
    ensures Slot(bucket, key) !in st.contents <==> r == Err(ObjectNotFound(bucket, key))
    ensures r.Ok? <==> Slot(bucket, key) in st.contents && Slot(bucket, key) in st.records
    ensures r.Ok? ==> r.value.data == st.contents[Slot(bucket, key)]
    ensures r.Ok? ==> r.value.meta == Describe(key, st.records[Slot(bucket, key)])
  {
    var slot := Slot(bucket, key);
    if slot !in st.contents then Err(ObjectNotFound(bucket, key))
    else if slot !in st.records then Err(MetadataUnreadable(bucket, key))
    else Ok(Object(st.contents[slot], Describe(key, st.records[slot])))
  }

  /** HeadObject: looks only at the metadata record. */
  function HeadObject(st: Store, bucket: string, key: string): (r: Result<ObjectMetadata, StorageError>)
    ensures r.Ok? <==> Slot(bucket, key) in st.records
    ensures r.Err? ==> r.error == ObjectNotFound(bucket, key)
    ensures r.Ok? ==> r.value == Describe(key, st.records[Slot(bucket, key)])
  {
    var slot := Slot(bucket, key);
    if slot !in st.records then Err(ObjectNotFound(bucket, key))
    else Ok(Describe(key, st.records[slot]))
  }

  /** DeleteObject: removes bytes and record; a missing object is not an error. */
  function DeleteObject(st: Store, bucket: string, key: string): (r: Step<()>)
    ensures r.result.Ok?
    ensures Slot(bucket, key) !in r.store.contents && Slot(bucket, key) !in r.store.records
    ensures forall s | s != Slot(bucket, key) :: SameObject(st, r.store, s)
    ensures r.store.uploads == st.uploads
  {
    var slot := Slot(bucket, key);
    Step(Ok(()), st.(contents := st.contents - {slot}, records := st.records - {slot}))
  }

  /** The outcome of a batch delete: keys deleted, errors met, and the resulting store. */
  datatype BatchDelete = BatchDelete(deleted: seq<string>, errors: seq<StorageError>, store: Store)

  /** DeleteObjects: DeleteObject on each key in turn, collecting the keys that succeeded. */
  function DeleteObjects(st: Store, bucket: string, keys: seq<string>): (r: BatchDelete)
    ensures r.deleted == keys && r.errors == []
    ensures forall k | k in keys ::
      Slot(bucket, k) !in r.store.contents && Slot(bucket, k) !in r.store.records
    ensures forall s: Slot | !(s.bucket == bucket && s.key in keys) :: SameObject(st, r.store, s)
    ensures r.store.uploads == st.uploads
    decreases |keys|
  {
    if keys == [] then BatchDelete([], [], st)
    else
      var first := DeleteObject(st, bucket, keys[0]);
      var rest := DeleteObjects(first.store, bucket, keys[1..]);
      match first.result
      case Ok(_) => BatchDelete([keys[0]] + rest.deleted, rest.errors, rest.store)
      case Err(e) => BatchDelete(rest.deleted, [e] + rest.errors, rest.store)
  }

  /** The first byte served: a negative start means the beginning. */
  function ClampStart(rangeStart: int): (r: int)
    ensures r >= 0
    ensures rangeStart < 0 ==> r == 0
    ensures rangeStart >= 0 ==> r == rangeStart
  {
    if rangeStart < 0 then 0 else rangeStart
  }

  /** The last byte served: a negative end, or one at or past the size, means the last byte. */
  function ClampEnd(rangeEnd: int, size: nat): (r: int)
    ensures r < size
    ensures rangeEnd < 0 || rangeEnd >= size ==> r == size - 1
    ensures 0 <= rangeEnd < size ==> r == rangeEnd
  {
    if rangeEnd < 0 || rangeEnd >= size then size - 1 else rangeEnd
  }

  /**
   * GetObjectRange: bytes `start..end` inclusive after clamping, with the clamped bounds.
   * An empty range after clamping is "invalid range", so an empty object never serves one.
   */
  function GetObjectRange(
    st: Store, bucket: string, key: string, rangeStart: int, rangeEnd: int): (r: Result<RangeRead, StorageError>)
    ensures Slot(bucket, key) !in st.contents ==> r == Err(ObjectNotFound(bucket, key))
    ensures Slot(bucket, key) in st.contents ==>
      var size := |st.contents[Slot(bucket, key)]|;
      (r == Err(InvalidRange) <==> ClampStart(rangeStart) > ClampEnd(rangeEnd, size))
    ensures Slot(bucket, key) in st.contents ==>
      var size := |st.contents[Slot(bucket, key)]|;
      ClampStart(rangeStart) <= ClampEnd(rangeEnd, size) ==>
        if Slot(bucket, key) in st.records then r.Ok? else r == Err(MetadataUnreadable(bucket, key))
    ensures r.Ok? ==>
      && Slot(bucket, key) in st.contents && Slot(bucket, key) in st.records
      && var data := st.contents[Slot(bucket, key)];
      && r.value.start == ClampStart(rangeStart)
      && r.value.end == ClampEnd(rangeEnd, |data|)
      && 0 <= r.value.start <= r.value.end < |data|
      && r.value.data == data[r.value.start..r.value.end + 1]
      && |r.value.data| == r.value.end - r.value.start + 1
      && r.value.meta == Describe(key, st.records[Slot(bucket, key)])
  {
    var slot := Slot(bucket, key);
    if slot !in st.contents then Err(ObjectNotFound(bucket, key))
    else
      var data := st.contents[slot];
      var end := ClampEnd(rangeEnd, |data|);
      var start := ClampStart(rangeStart);
      if start > end then Err(InvalidRange)
      else if slot !in st.records then Err(MetadataUnreadable(bucket, key))
      else Ok(RangeRead(data[start..end + 1], Describe(key, st.records[slot]), start, end))
  }

  // Properties relating the operations.

  /**
   * Every object has both its bytes and its record, and the record's size is the byte
   * count. The empty store has it, and every successful write keeps it.
   */
  predicate Consistent(st: Store) {
    && st.contents.Keys == st.records.Keys
    && forall s | s in st.records :: st.records[s].size == |st.contents[s]|
  }

  /** Put keeps the store consistent. */
  lemma PutKeepsConsistent(
    st: Store, bucket: string, key: string, data: Bytes,
    metadata: map<string, string>, contentType: string, unixSeconds: int, now: Instant)
    requires Consistent(st)
    ensures Consistent(PutObject(st, bucket, key, data, metadata, contentType, unixSeconds, now).store)
  {
  }

  /** Delete keeps the store consistent. */
  lemma DeleteKeepsConsistent(st: Store, bucket: string, key: string)
    requires Consistent(st)
    ensures Consistent(DeleteObject(st, bucket, key).store)
  {
  }

  /** A batch delete keeps the store consistent. */
  lemma {:induction false} DeleteObjectsKeepsConsistent(st: Store, bucket: string, keys: seq<string>)
    requires Consistent(st)
    ensures Consistent(DeleteObjects(st, bucket, keys).store)
    decreases |keys|
  {
    if keys != [] {
      DeleteKeepsConsistent(st, bucket, keys[0]);
      DeleteObjectsKeepsConsistent(DeleteObject(st, bucket, keys[0]).store, bucket, keys[1..]);
    }
  }

  /** In a consistent store Get and Head agree on whether an object exists. */
  lemma ConsistentGetMatchesHead(st: Store, bucket: string, key: string)
    requires Consistent(st)
    ensures GetObject(st, bucket, key).Ok? <==> HeadObject(st, bucket, key).Ok?
    ensures GetObject(st, bucket, key).Ok? ==> GetObject(st, bucket, key).value.meta.size == |GetObject(st, bucket, key).value.data|
  {
    assert Slot(bucket, key) in st.contents <==> Slot(bucket, key) in st.records;
  }

  /** Put then Get returns exactly the written bytes with the metadata Put returned. */
  lemma PutThenGet(
    st: Store, bucket: string, key: string, data: Bytes,
    metadata: map<string, string>, contentType: string, unixSeconds: int, now: Instant)
    ensures var put := PutObject(st, bucket, key, data, metadata, contentType, unixSeconds, now);
      && GetObject(put.store, bucket, key) == Ok(Object(data, put.result.value))
      && HeadObject(put.store, bucket, key) == Ok(put.result.value)
      && put.result.value.size == |data|
      && put.result.value.contentType == contentType
      && put.result.value.metadata == metadata
  {
  }

  /** A later Put to the same key replaces what an earlier one wrote. */
  lemma PutOverwrites(
    st: Store, bucket: string, key: string,
    data1: Bytes, md1: map<string, string>, ct1: string, secs1: int, now1: Instant,
    data2: Bytes, md2: map<string, string>, ct2: string, secs2: int, now2: Instant)
    ensures var first := PutObject(st, bucket, key, data1, md1, ct1, secs1, now1);
      var second := PutObject(first.store, bucket, key, data2, md2, ct2, secs2, now2);
      && GetObject(second.store, bucket, key) == Ok(Object(data2, second.result.value))
      && second.store == PutObject(st, bucket, key, data2, md2, ct2, secs2, now2).store
  {
    var first := PutObject(st, bucket, key, data1, md1, ct1, secs1, now1).store;
    PutThenGet(first, bucket, key, data2, md2, ct2, secs2, now2);
    PutTwiceIsPutOnce(st, bucket, key, data1, md1, ct1, secs1, now1, data2, md2, ct2, secs2, now2);
  }

  lemma PutTwiceIsPutOnce(
    st: Store, bucket: string, key: string,
    data1: Bytes, md1: map<string, string>, ct1: string, secs1: int, now1: Instant,
    data2: Bytes, md2: map<string, string>, ct2: string, secs2: int, now2: Instant)
    ensures var first := PutObject(st, bucket, key, data1, md1, ct1, secs1, now1).store;
      PutObject(first, bucket, key, data2, md2, ct2, secs2, now2).store
        == PutObject(st, bucket, key, data2, md2, ct2, secs2, now2).store
  {
    var slot := Slot(bucket, key);
    var rec1 := Record(|data1|, now1, PutETag(|data1|, secs1), ct1, md1);
    var rec2 := Record(|data2|, now2, PutETag(|data2|, secs2), ct2, md2);
    var first := Store(st.contents[slot := data1], st.records[slot := rec1], st.uploads);
    assert PutObject(st, bucket, key, data1, md1, ct1, secs1, now1).store == first;
    var twice := Store(first.contents[slot := data2], first.records[slot := rec2], st.uploads);
    assert PutObject(first, bucket, key, data2, md2, ct2, secs2, now2).store == twice;
    var once := Store(st.contents[slot := data2], st.records[slot := rec2], st.uploads);
    assert PutObject(st, bucket, key, data2, md2, ct2, secs2, now2).store == once;
    assert twice.contents == once.contents by { MapUpdateTwice(st.contents, slot, data1, data2); }
    assert twice.records == once.records by { MapUpdateTwice(st.records, slot, rec1, rec2); }
  }

  lemma MapUpdateTwice<K, V>(m: map<K, V>, k: K, a: V, b: V)
    ensures m[k := a][k := b] == m[k := b]
  {
  }

  /** Two Puts of the same size in the same second get the same ETag whatever their bytes. */
  lemma PutETagIgnoresContent(
    st: Store, bucket: string, key: string, data1: Bytes, data2: Bytes,
    metadata: map<string, string>, contentType: string, unixSeconds: int, now: Instant)
    requires |data1| == |data2|
    ensures PutObject(st, bucket, key, data1, metadata, contentType, unixSeconds, now).result.value.etag
         == PutObject(st, bucket, key, data2, metadata, contentType, unixSeconds, now).result.value.etag
  {
  }

  /** When Get succeeds, Head agrees with it on the metadata. */
  lemma GetAgreesWithHead(st: Store, bucket: string, key: string)
    requires GetObject(st, bucket, key).Ok?
    ensures HeadObject(st, bucket, key) == Ok(GetObject(st, bucket, key).value.meta)
  {
  }

  /** After a delete both reads report "not found". */
  lemma DeleteThenNotFound(st: Store, bucket: string, key: string)
    ensures var del := DeleteObject(st, bucket, key);
      && GetObject(del.store, bucket, key) == Err(ObjectNotFound(bucket, key))
      && HeadObject(del.store, bucket, key) == Err(ObjectNotFound(bucket, key))
  {
  }

  /** Deleting twice is deleting once, and deleting what is absent changes nothing. */
  lemma DeleteIdempotent(st: Store, bucket: string, key: string)
    ensures var once := DeleteObject(st, bucket, key);
      && DeleteObject(once.store, bucket, key) == once
      && (Slot(bucket, key) !in st.contents && Slot(bucket, key) !in st.records ==> once.store == st)
  {
    var slot := Slot(bucket, key);
    var once := DeleteObject(st, bucket, key);
    assert once.store.contents - {slot} == once.store.contents;
    assert once.store.records - {slot} == once.store.records;
    if slot !in st.contents && slot !in st.records {
      assert st.contents - {slot} == st.contents;
      assert st.records - {slot} == st.records;
    }
  }

  /** Within bounds, a range read serves exactly the requested bytes at the requested bounds. */
  lemma RangeWithinBounds(st: Store, bucket: string, key: string, start: int, end: int)
    requires Slot(bucket, key) in st.contents && Slot(bucket, key) in st.records
    requires 0 <= start <= end < |st.contents[Slot(bucket, key)]|
    ensures var r := GetObjectRange(st, bucket, key, start, end);
      && r.Ok? && r.value.start == start && r.value.end == end
      && r.value.data == st.contents[Slot(bucket, key)][start..end + 1]
  {
  }

  /** A served range is the corresponding slice of what GetObject serves. */
  lemma RangeIsSliceOfGet(st: Store, bucket: string, key: string, rangeStart: int, rangeEnd: int)
    requires GetObjectRange(st, bucket, key, rangeStart, rangeEnd).Ok?
    ensures var r := GetObjectRange(st, bucket, key, rangeStart, rangeEnd).value;
      var g := GetObject(st, bucket, key);
      && g.Ok? && g.value.meta == r.meta
      && r.data == g.value.data[r.start..r.end + 1]
  {
  }

  /** Start 0 with an open end serves a non-empty object whole. */
  lemma RangeOpenEndIsWholeObject(st: Store, bucket: string, key: string)
    requires GetObject(st, bucket, key).Ok? && |GetObject(st, bucket, key).value.data| > 0
    ensures var r := GetObjectRange(st, bucket, key, 0, -1);
      r.Ok? && r.value.data == GetObject(st, bucket, key).value.data
  {
    var data := st.contents[Slot(bucket, key)];
    assert data[0..|data|] == data;
  }

  /** No range of an empty object can be served. */
  lemma RangeOfEmptyObjectFails(st: Store, bucket: string, key: string, rangeStart: int, rangeEnd: int)
    requires Slot(bucket, key) in st.contents && st.contents[Slot(bucket, key)] == []
    ensures GetObjectRange(st, bucket, key, rangeStart, rangeEnd) == Err(InvalidRange)
  {
  }
}

=== FILE: string_order.dfy ===
/**
 * Go's `<` on strings, which orders object keys in listings. Go compares the bytes of the
 * strings lexicographically; on `seq<char>` the same definition compares code points, which
 * agrees with the byte order of their UTF-8 encodings.
 */
module StringOrder {

  /** `a < b`: `a` is a proper prefix of `b`, or `a` is smaller at the first difference. */
  predicate Less(a: string, b: string)
    decreases |a|
  {
    if a == [] then b != []
    else if b == [] then false
    else if a[0] != b[0] then a[0] < b[0]
    else Less(a[1..], b[1..])
  }

  lemma {:induction false} LessIrreflexive(a: string)
    ensures !Less(a, a)
    decreases |a|
  {
    if a != [] {
      LessIrreflexive(a[1..]);
    }
  }

  lemma {:induction false} LessAsymmetric(a: string, b: string)
    ensures Less(a, b) ==> !Less(b, a)
    decreases |a|
  {
    if a != [] && b != [] && a[0] == b[0] {
      LessAsymmetric(a[1..], b[1..]);
    }
  }

  lemma {:induction false} LessTransitive(a: string, b: string, c: string)
    requires Less(a, b) && Less(b, c)
    ensures Less(a, c)
    decreases |a|
  {
    if a != [] && a[0] == b[0] && b[0] == c[0] {
      LessTransitive(a[1..], b[1..], c[1..]);
    }
  }

  /** Any two distinct strings are ordered one way or the other. */
  lemma {:induction false} LessTotal(a: string, b: string)
    ensures a == b || Less(a, b) || Less(b, a)
    decreases |a|
  {
    if a != [] && b != [] && a[0] == b[0] {
      LessTotal(a[1..], b[1..]);
      if a[1..] == b[1..] {
        assert a == [a[0]] + a[1..] && b == [b[0]] + b[1..];
      }
    }
  }

  /** The empty string comes before every other string. */
  lemma EmptyIsLeast(a: string)
    ensures a == "" || Less("", a)
  {
  }
}

=== FILE: text.dfy ===
/**
 * The handful of Go `strings` functions the request handlers rely on, on `seq<char>`:
 * HasPrefix, TrimPrefix, ToLower, Split with a one-character separator and Trim with a
 * one-character cutset.
 */
module Text {

  /** `strings.HasPrefix(s, p)`. The empty prefix is a prefix of everything. */
  predicate HasPrefix(s: string, p: string) {
    |p| <= |s| && s[..|p|] == p
  }

  /** `strings.TrimPrefix(s, p)`: removes `p` from the front of `s` when it is there. */
  function TrimPrefix(s: string, p: string): (r: string)
    ensures HasPrefix(s, p) ==> p + r == s
    ensures !HasPrefix(s, p) ==> r == s
  {
    if HasPrefix(s, p) then s[|p|..] else s
  }

  /**
   * Lower-casing of one character. HTTP header names are tokens, which are ASCII, and
   * Go's net/http refuses any other header name, so ASCII lowering is all that is reached.
   */
  function LowerChar(c: char): char {
    if 'A' <= c <= 'Z' then (c as int + 32) as char else c
  }

  /** `strings.ToLower` on ASCII text. */
  function ToLower(s: string): (r: string)
    ensures |r| == |s|
    ensures forall i | 0 <= i < |s| :: r[i] == LowerChar(s[i])
  {
    if s == [] then [] else [LowerChar(s[0])] + ToLower(s[1..])
  }

  /** Lowering works character by character, so it distributes over concatenation. */
  lemma ToLowerConcat(a: string, b: string)
    ensures ToLower(a + b) == ToLower(a) + ToLower(b)
  {
    var l, r := ToLower(a + b), ToLower(a) + ToLower(b);
    assert |l| == |r|;
    forall i | 0 <= i < |l|
      ensures l[i] == r[i]
    {
      if i < |a| {
        assert (a + b)[i] == a[i];
      } else {
        assert (a + b)[i] == b[i - |a|];
      }
    }
  }

  /** No upper-case ASCII letter in `s`. */
  predicate NoUpper(s: string) {
    s == [] || (!('A' <= s[0] <= 'Z') && NoUpper(s[1..]))
  }

  /** Lowering text without upper-case letters leaves it alone. */
  lemma {:induction false} LowerOfNoUpper(s: string)
    requires NoUpper(s)
    ensures ToLower(s) == s
  {
    if s != [] {
      LowerOfNoUpper(s[1..]);
    }
  }

  /** Position of the first occurrence of `c` in `s`. */
  function IndexOf(s: string, c: char): (i: nat)
    requires c in s
    ensures i < |s| && s[i] == c && c !in s[..i]
  {
    if s[0] == c then 0
    else
      var j := IndexOf(s[1..], c);
      assert s[..j + 1] == [s[0]] + s[1..][..j];
      1 + j
  }

  /** The pieces joined back together with the separator between them (`strings.Join`). */
  function Join(pieces: seq<string>, sep: char): string {
    if |pieces| == 0 then ""
    else if |pieces| == 1 then pieces[0]
    else pieces[0] + [sep] + Join(pieces[1..], sep)
  }

  /** No piece contains the separator. */
  predicate Separated(pieces: seq<string>, sep: char) {
    forall i | 0 <= i < |pieces| :: sep !in pieces[i]
  }

  /**
   * `strings.Split(s, sep)` for a one-character separator: the text between consecutive
   * separators, so there is always one piece more than there are separators (the empty
   * string splits into one empty piece).
   */
  function Split(s: string, sep: char): (pieces: seq<string>)
    ensures |pieces| == multiset(s)[sep] + 1
    ensures Separated(pieces, sep)
    ensures Join(pieces, sep) == s
    decreases |s|
  {
    if sep !in s then [s]
    else
      var i := IndexOf(s, sep);
      var rest := Split(s[i + 1..], sep);
      assert s == s[..i] + [sep] + s[i + 1..];
      assert multiset(s)[sep] == multiset(s[..i])[sep] + 1 + multiset(s[i + 1..])[sep];
      [s[..i]] + rest
  }

  /** Splitting is the inverse of joining separator-free pieces. */
  lemma {:induction false} SplitJoin(pieces: seq<string>, sep: char)
    requires |pieces| >= 1 && Separated(pieces, sep)
    ensures Split(Join(pieces, sep), sep) == pieces
    decreases |pieces|
  {
    var s := Join(pieces, sep);
    if |pieces| > 1 {
      var rest := Join(pieces[1..], sep);
      var i := IndexOf(s, sep);
      var n := |pieces[0]|;
      assert s == pieces[0] + [sep] + rest;
      assert s[n] == sep;
      assert s[..i] == pieces[0];
      assert s[i + 1..] == rest;
      SplitJoin(pieces[1..], sep);
    }
  }

  /** `strings.TrimLeft(s, [c])`: drops every leading `c`. */
  function TrimLeft(s: string, c: char): (r: string)
    ensures |r| <= |s| && r == s[|s| - |r|..]
    ensures forall i | 0 <= i < |s| - |r| :: s[i] == c
    ensures r == [] || r[0] != c
  {
    if s != [] && s[0] == c then TrimLeft(s[1..], c) else s
  }

  /** `strings.TrimRight(s, [c])`: drops every trailing `c`. */
  function TrimRight(s: string, c: char): (r: string)
    ensures |r| <= |s| && r == s[..|r|]
    ensures forall i | |r| <= i < |s| :: s[i] == c
    ensures r == [] || r[|r| - 1] != c
  {
    if s != [] && s[|s| - 1] == c then TrimRight(s[..|s| - 1], c) else s
  }

  /**
   * `r` is `s` with `lead` copies of `c` removed in front and the rest removed behind, and
   * neither begins nor ends with `c`.
   */
  predicate TrimmedOf(r: string, s: string, c: char) {
    var lead := |s| - |TrimLeft(s, c)|;
    && Unpadded(r, c)
    && lead + |r| <= |s|
    && r == s[lead..lead + |r|]
    && (forall i | 0 <= i < lead :: s[i] == c)
    && (forall i | lead + |r| <= i < |s| :: s[i] == c)
  }

  /** `strings.Trim(s, [c])`: drops every leading and every trailing `c`. */
  function Trim(s: string, c: char): (r: string)
    ensures TrimmedOf(r, s, c)
  {
    var l := TrimLeft(s, c);
    var r := TrimRight(l, c);
    var lead := |s| - |l|;
    assert r == l[..|r|];
    forall i | lead + |r| <= i < |s| ensures s[i] == c {
      assert s[i] == l[i - lead];
    }
    r
  }

  /** Text that neither begins nor ends with `c`; trimming `c` leaves it alone. */
  predicate Unpadded(s: string, c: char) {
    s == [] || (s[0] != c && s[|s| - 1] != c)
  }

  /** Trimming `c` removes exactly one `c` added on each side of unpadded text. */
  lemma TrimUndoesPadding(e: string, c: char)
    requires Unpadded(e, c)
    ensures Trim([c] + e + [c], c) == e
  {
    var s := [c] + e + [c];
    var l := TrimLeft(s, c);
    if e == [] {
      assert s == [c, c];
      assert l == [];
    } else {
      assert s[1] == e[0];
      assert |l| == |s| - 1;
      assert l == e + [c];
      var r := TrimRight(l, c);
      assert l[|l| - 2] == e[|e| - 1];
      assert |r| == |l| - 1;
    }
  }
}
